=== FILE: README.md ===
# drunk-tux server, modelled in Dafny

drunk-tux is a root daemon that keeps a laptop awake when its lid is closed, for a
while ("caffeine"). It does this by setting `HandleLidSwitch` in logind's
`[Login]` section to `ignore`, and back to `suspend` when the session ends. A
client sends it one-line commands over an authenticated local socket. This project
models the pure core of `server.py`:

- `convert_to_seconds`: the duration scanner, module `Duration`;
- `prettify_seconds`: the humaniser, module `Humanize`;
- `get_mode`, `toggle_lid_suspend` and the effect of `set_mode`: module `Policy`;
- the `caffeine` worker, `clean_thread`, the command dispatch and the shutdown
  code: a pure transition function `Daemon.Step`, with the properties of the loop
  in module `Lifecycle`.

Supporting modules: `Wrappers` holds `Option`, and `Text` holds digits and the
exact values of digit strings and decimal fractions, Python's `str(int)` and
`", ".join`.

The state of the daemon is a `Daemon.Server`. It holds:

- the policy value: `None` when the key is absent;
- the registry of caffeine sessions (`running_threads`);
- where the accept loop stands: listening, serving a connection, stopped in
  order, or crashed.

The worker thread becomes two events:

- `WorkerReady`: it has written `ignore` and set its ready event;
- `WorkerExpired`: its wait ran out and it wrote `suspend`.

Cancelling a worker (`spill`, shutdown) sets its event and joins it. Joining means
that, by the time the loop continues, the worker has written `suspend`, so the
model applies that write in the same step. Time is an integer `now` in seconds,
passed with every event. Replies are a `Daemon.Reply` value naming the branch
that sends them, and `Reply.Text()` renders the exact string the source sends.

Duration tokens are valued as exact reals: the whole digits plus the fraction
digits, so `w.f` is worth exactly `(w * 10^|f| + f) / 10^|f|`. Python's `timedelta` raises `OverflowError` past 999999999 days. That
case is `None` from `ConvertToSeconds`, and in the loop it is an uncaught
exception that ends the server (`Crashed`).

The unknown-command reply keeps the source's own spelling, "recogize".

## Model

| member | source | states |
|---|---|---|
| Text.NatToString | server.py:60 | `str(n)` is a non-empty digit string with no leading zero (unless `n` is 0) that reads back as `n` |
| Text.IntToString | server.py:60 | `str(n)` of any integer: a leading minus exactly for negative `n`, followed by the digits of its magnitude |
| Text.Join | server.py:62 | `", ".join` gives `""` for no parts and the part itself for one part |
| Text.FractionValue | server.py:46 | the value of the digits after the dot lies in [0, 1] and is 0 for no digits |
| Text.FractionScaled | server.py:46 | the fraction digits `f` are worth exactly `f / 10^|f|`: scaled by `10^|f|` they give the integer they spell |
| Text.DigitsValueHead | server.py:46 | a digit string is worth its first digit times `10^(length - 1)` plus the value of the rest |
| Text.JoinAppend | server.py:62 | joining two non-empty lists of parts is joining each and putting one separator between them, so every pair of neighbouring parts is separated exactly once |
| Duration.DigitRun | server.py:48 | `\d+` is greedy: the run is all digits, is non-empty at a digit, and stops only before a non-digit or at the end |
| Duration.NumberEnd | server.py:48 | the optional `(\.\d+)` is taken only when a digit follows the dot, and it is always taken then (the group is greedy); the number stops before a non-digit |
| Duration.ReadToken | server.py:46-48 | one match consumes at least one character and has a non-negative value; `ReadTokenWhole` and `ReadTokenDecimal` fix its value, unit and length, and `ReadTokenSimilar` and `ReadTokenAppend` pin down which characters it depends on |
| Duration.ReadTokenWhole | server.py:46-48 | digits not followed by a digit or by a dot and a digit are one match worth their value, in the unit the next character selects, and in seconds when it selects none or the string ends there (`UNITS.get(..., "seconds")`) |
| Duration.ReadTokenDecimal | server.py:46-48 | `w.f` followed by a non-digit is one match whose value times `10^|f|` is exactly `w * 10^|f| + f`, so every fraction digit counts; its unit and length follow the character after it as for a whole number |
| Duration.ReadQuarterPastOne | server.py:46-48 | `"1.25h"` is one match of 1.25 hours spanning all five characters |
| Duration.ScanNumberThenOther | server.py:45-48 | digits followed by a character that is neither a digit nor a unit letter are one match in seconds |
| Duration.ScanNumberThenSpace | server.py:45-48 | digits followed by a space are one match in seconds, and the space ends it |
| Duration.ScanBareThenUnit | server.py:45-48 | `"<d> <e><u>"` is two matches: `d` in seconds, then `e` in unit `u` |
| Duration.Scan | server.py:47-49 | `re.finditer` over the whole string: every match has a non-negative value; `ScanAppend`, `ScanSkipsDigitFree` and `ScanSimilar` state how matches compose |
| Duration.UnitOf | server.py:42-48 | a character that selects a unit is never a digit or a dot; which unit each letter selects is stated by `UnitTable`, and `ConvertOneWeek` uses `w` |
| Duration.UnitTable | server.py:42 | `s`, `m`, `h`, `d` and `w` select seconds, minutes, hours, days and weeks, as the `UNITS` table names them |
| Duration.Multiplier | server.py:42-46 | every unit is a positive number of seconds; `UnitSizes` fixes each size as `timedelta` counts its keyword |
| Duration.UnitSizes | server.py:42-46 | a minute is 60 seconds, an hour 60 minutes, a day 24 hours and a week 7 days, as `timedelta` counts `minutes`, `hours`, `days` and `weeks` |
| Duration.DecimalValue | server.py:46 | `float(m.group("val"))` read exactly: at least the whole part, and `ReadTokenDecimal` gives its exact value; float rounding is not modelled (see "Left out") |
| Duration.UnitLetters | server.py:42-48 | a character selects a unit exactly when it is one of `smhdw` in either case |
| Duration.UnitOfIgnoresCase | server.py:46-48 | a character selects the same unit as its lower-case form, as `re.I` and `.lower()` make it |
| Duration.Assign | server.py:45-50 | the dict comprehension: its meaning is stated by `AssignKeepsLast` and `FieldIsLastValue` |
| Duration.AssignSnoc | server.py:45-50 | one more match overwrites the entry of its unit and nothing else |
| Duration.FieldIsLastValue | server.py:45-50 | after the comprehension, each unit's value is that of the last match naming it, and 0 when none does |
| Duration.Total | server.py:44-51 | `timedelta(**kw).total_seconds()`: its meaning is stated by `TotalIsLastTotal` |
| Duration.TotalIsLastTotal | server.py:44-51 | the total is the sum over the five units of the last value given to the unit times its size in seconds |
| Duration.ConvertToSeconds | server.py:41-52 | a result is always below `timedelta`'s limit of 1000000000 days; past it the call fails with an overflow |
| Duration.ConvertMeaning | server.py:41-52 | for every string: the result is the whole part of the sum over units of the last value per unit times its size, and the call fails exactly when that sum reaches the `timedelta` limit |
| Duration.ScanSkipsDigitFree | server.py:47-49 | text without digits before a string adds no match and does not shift the matches after it |
| Duration.ConvertNoDigits | server.py:41-52 | a string with no digits has no matches and converts to 0 |
| Duration.ScanBareNumber | server.py:46-48 | a bare digit string is one match, its value, in seconds |
| Duration.ScanNumberWithUnit | server.py:46-48 | digits followed by a unit letter are one match, in that unit |
| Duration.ScanSimilar | server.py:47-49 | two strings that differ only in the case of unit letters, or in other characters that are not digits or dots, scan to the same matches |
| Duration.ConvertIgnoresCase | server.py:48 | the result does not change when unit letters are upper-cased |
| Duration.AssignKeepsLast | server.py:45-50 | after the dict comprehension a unit has a value iff some match names it, and that value is the one of the LAST match naming it |
| Duration.ScanAppend | server.py:47-49 | a string that ends on a character that cannot continue a number scans the same on its own as inside a longer string |
| Duration.ConvertBareNumber | server.py:41-52 | a digit-free prefix followed by `str(n)` converts to `n` seconds |
| Duration.ConvertNumberWithUnit | server.py:41-52 | a digit-free prefix followed by `str(n)` and a unit letter converts to `n` times that unit's size |
| Duration.ConvertRepeatedUnitOverrides | server.py:45-50 | `"<n><u> <m><u>"` converts to `m` units: the later token replaces the earlier one, nothing is added |
| Duration.ConvertDistinctUnitsAdd | server.py:44-51 | `"<n><u> <m><v>"` with different units converts to the sum of both in seconds |
| Duration.ConvertTwoUnits | server.py:44-51 | two matches in different units convert to the sum of their values times their unit sizes |
| Duration.ConvertSecondsThenUnit | server.py:44-51 | a match in seconds and one in another unit convert to the first plus the second times its unit size |
| Duration.ConvertBareThenUnit | server.py:41-52 | a digit-free prefix, then `"<d> <e><u>"` with `u` not seconds, converts to `d + e * size(u)`: the unit-less number counts as seconds |
| Duration.ConvertSecondsThenMinutes | server.py:41-52 | `"caffeine 5 10m"` converts to 605 |
| Duration.ConvertQuarterPastOneHour | server.py:41-52 | `"caffeine 1.25h"` converts to 4500: the second fraction digit counts |
| Duration.ConvertSkipsDigitFree | server.py:47-49 | a digit-free prefix, such as the command word, does not change the conversion |
| Duration.ConvertExactlyOneDay | server.py:41-52 | `"caffeine 86400s"` converts to 86400 |
| Duration.ConvertOneDayOneSecond | server.py:41-52 | `"caffeine 1d 1s"` converts to 86401 |
| Duration.ConvertThirtyMinutes | server.py:41-52 | `"caffeine 30m"` converts to 1800 |
| Duration.ConvertOneWeek | server.py:41-52 | `"caffeine 1w"` converts to 604800, a week of seconds |
| Duration.ConvertOneThenTwoMinutes | server.py:41-52 | `"caffeine 1m 2m"` converts to 120, not 180 |
| Duration.ConvertUpperCaseUnit | server.py:41-52 | `"caffeine 2H"` converts to 7200 |
| Duration.ConvertFractionalHour | server.py:41-52 | `"caffeine 1.5h"` converts to 5400 |
| Humanize.Decompose | server.py:57-61 | the `divmod` loop: its meaning is stated by `PartsAreDigits`, `PartsSumBack` and `PartsShape` |
| Humanize.Prettify | server.py:55-62 | `prettify_seconds`: its meaning is stated by `PrettifyEmptyIffZero`, by `PartsSumBack` and `PartsShape` on its parts, and by the examples below |
| Humanize.Render | server.py:60 | a rendered part ends in `s` exactly when its count is above one |
| Humanize.RenderAll | server.py:57-61 | each emitted part is rendered in place, one text per part |
| Humanize.PartsAreDigits | server.py:57-61 | the `divmod` loop emits exactly the non-zero mixed-radix digits (days, hours below 24, minutes below 60, seconds below 60), in that order |
| Humanize.DigitsSumBack | server.py:57-58 | the mixed-radix digits weigh back to the input, and each digit below a day is in range |
| Humanize.PartsSumBack | server.py:55-62 | the emitted counts times 86400, 3600, 60 and 1 sum back to the input, for every integer input |
| Humanize.PartsShape | server.py:57-61 | no emitted count is zero; hours are below 24 and minutes and seconds below 60; units come largest first; for a non-negative input every count is positive |
| Humanize.PrettifyEmptyIffZero | server.py:55-62 | the text is empty exactly for 0 |
| Humanize.PrettifyThirtyMinutes | server.py:55-62 | 1800 reads `"30 minutes"` |
| Humanize.PrettifyTwentyNineMinutes | server.py:55-62 | 1740 reads `"29 minutes"` |
| Humanize.PrettifyOneDay | server.py:55-62 | 86400 reads `"1 day"` |
| Humanize.PrettifyEachUnitOnce | server.py:55-62 | 3661 reads `"1 hour, 1 minute, 1 second"`: a count of one takes no plural `s` |
| Humanize.PrettifyNegative | server.py:55-62 | -5 reads `"-1 day, 23 hours, 59 minutes, 55 seconds"` because `divmod` floors |
| Policy.Mode | server.py:71-77 | the mode read is never empty; a non-empty stored value is reported as it is |
| Policy.DefaultIsSuspend | server.py:71-77 | a missing key and an empty value both read as `suspend` |
| Policy.Toggled | server.py:80-87 | toggling yields `ignore` iff the mode read is not `ignore`, and otherwise `suspend` |
| Policy.Write | server.py:90-91 | after `set_mode` the mode read is the value written |
| Policy.ToggleTwice | server.py:80-87 | toggling twice restores the mode read iff it was `suspend` or `ignore`; from anything else it ends at `suspend` |
| Policy.ToggleLock | server.py:84 | `lock` toggles to `ignore`, and toggling again gives `suspend` |
| Daemon.Prune | server.py:112-118 | `clean_thread` keeps only live entries, never adds one, and keeps a registry that is all live unchanged |
| Daemon.Finish | server.py:101-109 | a cancelled and joined worker has ended, had become ready, and keeps its start and duration |
| Daemon.FinishAll | server.py:221-224 | shutdown finishes every entry, one for one |
| Daemon.Shutdown | server.py:220-224 | the code after the loop leaves the server stopped |
| Daemon.Reply.Text | server.py:165-217 | the exact text of each reply; stated by `Lifecycle.DrinkingThirtyMinutes`, `TwentyNineMinutesRemaining`, `CaffeineWithoutDigits` and `CoffeeAtDeadline` |
| Daemon.Caffeine | server.py:171-191 | the `caffeine` branch; stated by `Lifecycle.CaffeineWhileLive`, `CaffeineOverflow`, `CaffeineTooLong` and `CaffeineAccepted` |
| Daemon.Coffee | server.py:193-205 | the `coffee` branch; stated by `Lifecycle.CoffeeSober` and `CoffeeRemaining` |
| Daemon.Spill | server.py:206-215 | the `spill` branch; stated by `Lifecycle.SpillNothing` and `SpillLive` |
| Daemon.Dispatch | server.py:153-217 | the `if`/`elif` chain; each branch is stated by a `Lifecycle` lemma: `EndOfStreamCloses`, `CloseServerEndsSessions`, `ToggleCommand`, `CurrentCommand`, `CaffeineDispatch`, the `coffee` and `spill` lemmas, and `UnknownCommand` |
| Daemon.Step | server.py:128-224 | one event of the loop; stated by `Lifecycle.StepPreservesInv`, `SessionEndWritesSuspend`, `StoppedIsFinal`, `InterruptEndsSessions`, `ReadyForcesIgnore`, `ExpiryEndsSession`, `EarlyExpiryIgnored`, `AcceptConnects` and `AuthFailureIgnored` |
| Lifecycle.PruneAppend | server.py:112-118 | pruning distributes over concatenation: with `PruneSingle`, it keeps exactly the live entries in their original order |
| Lifecycle.PruneSingle | server.py:114-116 | one entry is kept iff its worker is alive |
| Lifecycle.PruneIdempotent | server.py:112-118 | pruning twice is pruning once |
| Lifecycle.InitialInv | server.py:122-126 | the server starts with the invariant: an empty registry, running |
| Lifecycle.AtMostOneLive | server.py:172-176 | under the invariant at most one session is live |
| Lifecycle.ShutdownInv | server.py:220-224 | shutdown keeps the invariant and leaves no live session |
| Lifecycle.CaffeineInv | server.py:171-191 | `caffeine` keeps the invariant: at most one entry, none longer than a day |
| Lifecycle.CoffeeInv | server.py:193-205 | `coffee` keeps the invariant |
| Lifecycle.SpillInv | server.py:206-215 | `spill` keeps the invariant |
| Lifecycle.DispatchInv | server.py:153-217 | every command keeps the invariant |
| Lifecycle.ReadyInv | server.py:101-105 | a worker forcing `ignore` and becoming ready keeps the invariant |
| Lifecycle.ExpireInv | server.py:106-109 | a worker ending after its wait keeps the invariant |
| Lifecycle.StepPreservesInv | server.py:128-224 | every transition of the loop keeps the invariant, so the registry never holds two live sessions |
| Lifecycle.SessionEndWritesSuspend | server.py:101-224 | any transition that ends a live session leaves the mode read as `suspend` |
| Lifecycle.ExpiryEndsSession | server.py:106-109 | a ready worker whose wait ran out ends its session and writes `suspend` |
| Lifecycle.EarlyExpiryIgnored | server.py:106 | a worker's wait does not end before its `duration` has passed: an expiry that comes early changes nothing |
| Lifecycle.ReadyForcesIgnore | server.py:101-105 | once the worker is ready the mode is `ignore`, and `current` replies so |
| Lifecycle.ToggleDuringSessionIsOverwritten | server.py:106-109 | a `toggle` during a session is overwritten with `suspend` when the session expires |
| Lifecycle.CaffeineDispatch | server.py:153-171 | no exact-match command starts with `caffeine `, so such a message always reaches the caffeine branch |
| Lifecycle.CaffeineWhileLive | server.py:171-176 | `caffeine` while a session is live replies `Already running` and changes neither the live sessions nor the policy |
| Lifecycle.CaffeineTooLong | server.py:178-181 | a duration above 86400 is refused with the one-day message and starts no session |
| Lifecycle.CaffeineAccepted | server.py:182-191 | an accepted duration appends exactly one entry started now with that duration, replies with it humanised, and leaves the policy to the worker |
| Lifecycle.CaffeineOverflow | server.py:178 | a duration `timedelta` cannot hold ends the server without a reply |
| Lifecycle.CaffeineOneDay | server.py:179-191 | `caffeine 86400s`, exactly one day, is accepted |
| Lifecycle.CaffeineOverOneDay | server.py:179-191 | `caffeine 1d 1s`, one second over a day, is refused and starts nothing |
| Lifecycle.CaffeineOneWeek | server.py:179-191 | `caffeine 1w` is seven days, so it is refused and starts nothing |
| Lifecycle.CaffeineWithoutDigits | server.py:178-191 | a `caffeine ` message without digits starts a zero-length session and its reply names no duration |
| Lifecycle.CoffeeSober | server.py:193-198 | `coffee` with no live session replies `Tux is sober.` and changes nothing observable |
| Lifecycle.CoffeeRemaining | server.py:193-205 | `coffee` with a live session replies the duration minus the elapsed time, and changes nothing |
| Lifecycle.CoffeeAtDeadline | server.py:200-205 | `coffee` in a session's last second, before its worker wakes, replies just `" remaining"` |
| Lifecycle.SpillNothing | server.py:206-211 | `spill` with no live session says so and changes nothing observable |
| Lifecycle.SpillLive | server.py:206-215 | `spill` with a live session cancels it and replies `Spilled the coffee.`; no session is live after it, and the mode reads `suspend` |
| Lifecycle.ToggleCommand | server.py:163-165 | `toggle` writes the toggled mode, replies with it, and leaves the sessions alone |
| Lifecycle.CurrentCommand | server.py:167-169 | `current` replies the mode read and changes nothing |
| Lifecycle.ToggleTwiceRestores | server.py:163-165 | two `toggle`s restore a `suspend` or `ignore` mode |
| Lifecycle.UnknownCommand | server.py:216-217 | any other message is echoed back as not recognised and changes nothing |
| Lifecycle.BareCaffeineUnknown | server.py:171-217 | a bare `caffeine` (no space) is an unknown command |
| Lifecycle.AcceptConnects | server.py:128-130 | a listening server that accepts a client starts serving it, with no reply and nothing else changed |
| Lifecycle.FirstClientServed | server.py:121-130 | a fresh server's first accepted client is served, so the command lemmas apply to runs from the start |
| Lifecycle.AuthFailureIgnored | server.py:129-133 | a failed authentication changes nothing and sends nothing; the server keeps listening |
| Lifecycle.EndOfStreamCloses | server.py:144-156 | end of stream acts as `close connection`: back to listening, no reply, nothing else changes |
| Lifecycle.CloseServerEndsSessions | server.py:157-224 | `close server` stops the loop and ends every live session; the mode reads `suspend` if one was live, and is untouched otherwise |
| Lifecycle.InterruptEndsSessions | server.py:134-151 | an interrupt while listening or serving shuts down like `close server` |
| Lifecycle.StoppedIsFinal | server.py:128 | once the loop has stopped or crashed, nothing changes and nothing is sent |
| Lifecycle.Run | server.py:128-224 | the loop fed a sequence of events sends at most one reply per event |
| Lifecycle.RunSnoc | server.py:128-224 | one more event is ignored if the loop has stopped and otherwise stepped, its reply appended |
| Lifecycle.RunInv | server.py:128-224 | the invariant holds after any sequence of events: never two live sessions, none once stopped |
| Lifecycle.RunStopped | server.py:128 | once the loop has stopped, later events change nothing and send nothing |
| Lifecycle.Serve | server.py:128-224 | the loop computes `Run` over the events it consumes, stops early only because it stopped, keeps the invariant, and a stopped server leaves no live session |
| Lifecycle.Walkthrough | server.py:163-217 | a 30-minute session: started, `current` reads `ignore`, a second one refused, time left, spilled, `current` reads `suspend`, spill again, unknown command |
| Lifecycle.DrinkingThirtyMinutes | server.py:191 | the reply to an accepted half hour reads `"Drinking Coffee for 30 minutes"` |
| Lifecycle.TwentyNineMinutesRemaining | server.py:205 | 1740 seconds left reads `"29 minutes remaining"` |

## Left out

- Sockets and the authkey handshake (server.py:121, 129-130) are left out. They are transport I/O; a client that fails the handshake reaches the model only as the `AuthFailure` event, which changes nothing.
- Logging and the root check (server.py:19-33) are left out. They have no effect on state.
- Reading and writing the configuration file and restarting logind (server.py:65-68, 92-98) are left out. The file is reduced to the value of `HandleLidSwitch`.
- A configuration without a `[Login]` section is left out. There `get_mode` raises `KeyError`; the model assumes the section exists.
- Threads, `Event` timing and the one-second `gil_lock.wait(1)` (server.py:182-189) are modelled as separate events. The reply to `caffeine` may come before the worker is ready, and the model allows either order.
- Duration.DecimalValue: a number's value is the exact decimal, not the nearest `float`; see the next line.
- Duration.ConvertToSeconds: values are exact reals. The source goes through `float` and `timedelta`'s microsecond rounding, and that rounding is not modelled. Whole-number inputs are unaffected.
- Duration.UnitOf: only ASCII digits and the ASCII unit letters are modelled. Python's `\d` also matches other Unicode digits, and `re.I` folds a few non-ASCII letters onto `s`.
- Lifecycle.CoffeeRemaining: time is in whole seconds. `time.time()` is a float, and `int()` truncates the remaining time toward zero; that is not modelled.
- Messages that are not strings are left out. There `msg.startswith` raises and ends the server.
- `client.py` is left out. It is the interactive shell and holds no logic.

=== FILE: daemon.dfy ===
/** The daemon loop of server.py as a pure transition function. The server state is
    the lid-switch policy value, the registry of caffeine sessions (`running_threads`)
    and where the accept loop stands. Sockets, threads and the clock are replaced by
    events: a connection is accepted, a message or end-of-stream arrives, the
    operator interrupts, and a session's worker becomes ready or runs out its time.
    Each event is processed with the current time `now` in whole seconds. */
module Daemon {
  import opened Wrappers
  import opened Text
  import Duration
  import Humanize
  import Policy

  /** One registry entry: whether its worker thread is still alive, whether its
      cancel event has been set, whether the worker has forced `ignore` and signalled
      readiness, the creation time and the requested duration in seconds. */
  datatype Session = Session(alive: bool, cancelled: bool, ready: bool, start: int, duration: nat)

  /** Where the accept loop is: waiting in `accept`, serving one connection, shut
      down in order (`close server` or an interrupt), or ended by an exception the
      loop does not catch. */
  datatype Phase = Listening | Connected | Stopped | Crashed

  datatype Server = Server(store: Policy.Store, registry: seq<Session>, phase: Phase) {
    /** The source's `running` flag. */
    predicate Running() {
      phase == Listening || phase == Connected
    }
  }

  datatype Event =
    | Accept                    // `listener.accept()` returned an authenticated connection
    | AuthFailure               // `AuthenticationError`: logged, keep listening
    | Interrupt                 // `KeyboardInterrupt` in `accept()` or `recv()`
    | Receive(msg: string)      // `conn.recv()` returned a command
    | EndOfStream               // `EOFError` from `conn.recv()`
    | WorkerReady(index: nat)   // the worker of entry `index` wrote `ignore` and set its ready event
    | WorkerExpired(index: nat) // the worker of entry `index` waited out its duration

  /** The longest session `caffeine` accepts, in seconds. */
  const MaxDuration: nat := 86400

  /** The prefix that selects the `caffeine` command. */
  const CaffeinePrefix: string := "caffeine "

  /** What the loop sends back over the connection, by the branch that sends it. */
  datatype Reply =
    | ModeIs(mode: string)      // `toggle` and `current`: the policy value
    | AlreadyRunning
    | TooLong
    | Drinking(duration: nat)   // a session was started for `duration` seconds
    | Sober
    | Remaining(seconds: int)   // `coffee` on a live session
    | NothingToSpill
    | Spilled
    | Unrecognized(msg: string)
  {
    /** The text of the reply; durations go through `prettify_seconds`, and the
        misspelling in the unknown-command reply is the source's. */
    function Text(): string {
      match this
      case ModeIs(mode) => mode
      case AlreadyRunning => "Already running"
      case TooLong => "Duration cannot be greater than 1 day"
      case Drinking(duration) => "Drinking Coffee for " + Humanize.Prettify(duration)
      case Sober => "Tux is sober."
      case Remaining(seconds) => Humanize.Prettify(seconds) + " remaining"
      case NothingToSpill => "Tux isn't drinking any coffee."
      case Spilled => "Spilled the coffee."
      case Unrecognized(msg) => "The server does not recogize the command '" + msg + "'"
    }
  }

  function Initial(store: Policy.Store): Server {
    Server(store, [], Listening)
  }

  /** `clean_thread`: the entries whose worker is alive, in their original order. */
  function Prune(registry: seq<Session>): (live: seq<Session>)
    ensures |live| <= |registry|
    ensures forall i :: 0 <= i < |live| ==> live[i].alive
    ensures multiset(live) <= multiset(registry)
    ensures (forall i :: 0 <= i < |registry| ==> registry[i].alive) ==> live == registry
    decreases |registry|
  {
    if |registry| == 0 then []
    else
      var rest := Prune(registry[1..]);
      assert registry == [registry[0]] + registry[1..];
      if registry[0].alive then [registry[0]] + rest else rest
  }

  /** Number of sessions whose worker is alive. */
  function LiveCount(registry: seq<Session>): nat {
    |Prune(registry)|
  }

  /** A session whose cancel event was set and whose worker was joined: the worker
      became ready (if it was not), saw the event and ended. */
  function Finish(session: Session): (ended: Session)
    ensures !ended.alive && ended.cancelled && ended.ready
    ensures ended.start == session.start && ended.duration == session.duration
  {
    session.(alive := false, cancelled := true, ready := true)
  }

  function FinishAll(registry: seq<Session>): (ended: seq<Session>)
    ensures |ended| == |registry|
    ensures forall i :: 0 <= i < |ended| ==> ended[i] == Finish(registry[i])
    decreases |registry|
  {
    if |registry| == 0 then [] else [Finish(registry[0])] + FinishAll(registry[1..])
  }

  /** The code after the accept loop: prune, then set every cancel event and join
      every worker. Each joined worker's last act is to write `suspend`. */
  function Shutdown(s: Server): (s': Server)
    ensures s'.phase == Stopped
  {
    var live := Prune(s.registry);
    Server(if |live| > 0 then Policy.Write(s.store, Policy.Suspend) else s.store,
           FinishAll(live), Stopped)
  }

  /** `caffeine <expr>`: prune; refuse while one session is live; parse the whole
      message as a duration; refuse more than a day; otherwise start a worker and
      record a new entry. An `OverflowError` from the parse is not caught and ends
      the server. */
  function Caffeine(s: Server, msg: string, now: int): (Server, Option<Reply>) {
    var live := Prune(s.registry);
    if |live| == 1 then (s.(registry := live), Some(AlreadyRunning))
    else
      match Duration.ConvertToSeconds(msg)
      case None => (s.(registry := live, phase := Crashed), None)
      case Some(d) =>
        if d > MaxDuration then (s.(registry := live), Some(TooLong))
        else (s.(registry := live + [Session(true, false, false, now, d)]), Some(Drinking(d)))
  }

  /** `coffee`: the time left on the first live session, or the sober message. */
  function Coffee(s: Server, now: int): (Server, Option<Reply>) {
    var live := Prune(s.registry);
    if |live| == 0 then (s.(registry := live), Some(Sober))
    else (s.(registry := live), Some(Remaining(live[0].duration - (now - live[0].start))))
  }

  /** `spill`: cancel the first live session and wait for its worker to end. */
  function Spill(s: Server): (Server, Option<Reply>) {
    var live := Prune(s.registry);
    if |live| == 0 then (s.(registry := live), Some(NothingToSpill))
    else
      (s.(store := Policy.Write(s.store, Policy.Suspend), registry := live[0 := Finish(live[0])]),
       Some(Spilled))
  }

  /** The `if`/`elif` chain on one received message: exact matches, plus the
      `caffeine ` prefix. `close connection` and `close server` send no reply. */
  function Dispatch(s: Server, msg: string, now: int): (Server, Option<Reply>) {
    if msg == "close connection" then (s.(phase := Listening), None)
    else if msg == "close server" then (Shutdown(s), None)
    else if msg == "toggle" then
      var mode := Policy.Toggled(s.store);
      (s.(store := Policy.Write(s.store, mode)), Some(ModeIs(mode)))
    else if msg == "current" then (s, Some(ModeIs(Policy.Mode(s.store))))
    else if StartsWith(msg, CaffeinePrefix) then Caffeine(s, msg, now)
    else if msg == "coffee" then Coffee(s, now)
    else if msg == "spill" then Spill(s)
    else (s, Some(Unrecognized(msg)))
  }

  /** Whether entry `i` has a worker that has not yet forced `ignore`. */
  predicate CanBecomeReady(s: Server, i: nat) {
    i < |s.registry| && s.registry[i].alive && !s.registry[i].ready
  }

  /** Whether entry `i` has a ready worker whose wait has run out at `now`. */
  predicate CanExpire(s: Server, i: nat, now: int) {
    && i < |s.registry| && s.registry[i].alive && s.registry[i].ready
    && now - s.registry[i].start >= s.registry[i].duration
  }

  /** One transition and the reply it sends, if any. Events that cannot happen in
      the current state (a message while listening, a worker event for an entry
      whose worker is not in that stage) change nothing. */
  function Step(s: Server, e: Event, now: int): (Server, Option<Reply>) {
    match e
    case Accept => if s.phase == Listening then (s.(phase := Connected), None) else (s, None)
    case AuthFailure => (s, None)
    case Interrupt => if s.Running() then (Shutdown(s), None) else (s, None)
    case Receive(msg) => if s.phase == Connected then Dispatch(s, msg, now) else (s, None)
    case EndOfStream =>
      if s.phase == Connected then Dispatch(s, "close connection", now) else (s, None)
    case WorkerReady(i) =>
      if CanBecomeReady(s, i) then
        (s.(store := Policy.Write(s.store, Policy.Ignore),
            registry := s.registry[i := s.registry[i].(ready := true)]), None)
      else (s, None)
    case WorkerExpired(i) =>
      if CanExpire(s, i, now) then
        (s.(store := Policy.Write(s.store, Policy.Suspend),
            registry := s.registry[i := s.registry[i].(alive := false)]), None)
      else (s, None)
  }
}

=== FILE: duration.dfy ===
/** `convert_to_seconds` (server.py): a left-to-right scanner for
    `<digits>[.<digits>][smhdw]` tokens (unit letters in either case), folded into
    one value per unit where a later token for a unit replaces an earlier one,
    summed as a `timedelta` and truncated to whole seconds. */
module Duration {
  import opened Wrappers
  import opened Text

  datatype Unit = Seconds | Minutes | Hours | Days | Weeks

  /** Seconds in one of each `timedelta` keyword the unit letter selects. */
  function Multiplier(u: Unit): (k: nat)
    ensures k > 0
  {
    match u
    case Seconds => 1
    case Minutes => 60
    case Hours => 3600
    case Days => 86400
    case Weeks => 604800
  }

  /** The unit a letter directly after a number selects; the match ignores case. */
  function UnitOf(c: char): (u: Option<Unit>)
    ensures u.Some? ==> !IsDigit(c) && c != '.'
  {
    match c
    case 's' => Some(Seconds)
    case 'S' => Some(Seconds)
    case 'm' => Some(Minutes)
    case 'M' => Some(Minutes)
    case 'h' => Some(Hours)
    case 'H' => Some(Hours)
    case 'd' => Some(Days)
    case 'D' => Some(Days)
    case 'w' => Some(Weeks)
    case 'W' => Some(Weeks)
    case _ => None
  }

  /** One match of the pattern: its numeric value (exact) and its unit, seconds when
      no unit letter follows. */
  datatype Token = Token(value: real, unit: Unit)

  /** Length of the longest all-digit prefix of `s` (the greedy `\d+`). */
  function DigitRun(s: string): (n: nat)
    ensures n <= |s|
    ensures AllDigits(s[..n])
    ensures n < |s| ==> !IsDigit(s[n])
    ensures |s| > 0 && IsDigit(s[0]) ==> n > 0
    decreases |s|
  {
    if |s| > 0 && IsDigit(s[0]) then
      var n := 1 + DigitRun(s[1..]);
      assert s[..n] == [s[0]] + s[1..][..n - 1];
      n
    else 0
  }

  /** The exact value of `whole.frac`; Python goes through `float`, which this
      does not model. */
  function DecimalValue(whole: string, frac: string): (v: real)
    requires AllDigits(whole) && AllDigits(frac)
    ensures v >= DigitsValue(whole) as real
  {
    DigitsValue(whole) as real + FractionValue(frac)
  }

  /** End of the number that starts `s`: the digit run, then `.` and a second digit
      run only when a digit follows the dot. */
  function NumberEnd(s: string): (e: nat)
    requires |s| > 0 && IsDigit(s[0])
    ensures 0 < e <= |s|
    ensures e < |s| ==> !IsDigit(s[e])
    ensures e == DigitRun(s) || (DigitRun(s) + 1 < e && s[DigitRun(s)] == '.')
    ensures e != DigitRun(s) ==> AllDigits(s[DigitRun(s) + 1..e])
    ensures DigitRun(s) + 1 < |s| && s[DigitRun(s)] == '.' && IsDigit(s[DigitRun(s) + 1]) ==>
              e > DigitRun(s)
  {
    var w := DigitRun(s);
    if w + 1 < |s| && s[w] == '.' && IsDigit(s[w + 1]) then
      var f := DigitRun(s[w + 1..]);
      assert s[w + 1..][..f] == s[w + 1..w + 1 + f];
      w + 1 + f
    else w
  }

  /** The token that starts at the digit `s[0]`, and how many characters it spans. */
  function ReadToken(s: string): (r: (Token, nat))
    requires |s| > 0 && IsDigit(s[0])
    ensures 0 < r.1 <= |s|
    ensures r.0.value >= 0.0
  {
    var w := DigitRun(s);
    var e := NumberEnd(s);
    var frac := if e == w then "" else s[w + 1..e];
    var value := DecimalValue(s[..w], frac);
    if e < |s| && UnitOf(s[e]).Some? then (Token(value, UnitOf(s[e]).value), e + 1)
    else (Token(value, Seconds), e)
  }

  /** `re.finditer` over the whole string: characters that cannot start a match are
      skipped, and each match resumes the scan right after itself. */
  function Scan(s: string): (ts: seq<Token>)
    ensures forall i :: 0 <= i < |ts| ==> ts[i].value >= 0.0
    decreases |s|
  {
    if |s| == 0 then []
    else if !IsDigit(s[0]) then Scan(s[1..])
    else
      var r := ReadToken(s);
      [r.0] + Scan(s[r.1..])
  }

  /** The dict comprehension: each token stores its value under its unit, so a later
      token with the same unit overwrites the earlier one. */
  function Assign(acc: map<Unit, real>, ts: seq<Token>): map<Unit, real>
    decreases |ts|
  {
    if |ts| == 0 then acc else Assign(acc[ts[0].unit := ts[0].value], ts[1..])
  }

  function Field(m: map<Unit, real>, u: Unit): real {
    if u in m then m[u] else 0.0
  }

  /** What `timedelta(**m).total_seconds()` denotes, exactly. */
  function Total(m: map<Unit, real>): real {
    Field(m, Seconds) + Field(m, Minutes) * 60.0 + Field(m, Hours) * 3600.0
    + Field(m, Days) * 86400.0 + Field(m, Weeks) * 604800.0
  }

  /** `timedelta` refuses more than this many days with `OverflowError`. */
  const MaxDays: nat := 999999999

  /** The first total, in seconds, that `timedelta` refuses. */
  const OverflowSeconds: nat := (MaxDays + 1) * 86400

  /** `convert_to_seconds(s)`; `None` stands for the `OverflowError` that
      `timedelta` raises when the total exceeds `MaxDays` days. */
  function ConvertToSeconds(s: string): (r: Option<nat>)
    ensures r.Some? ==> r.value < OverflowSeconds
  {
    var total := Total(Assign(map[], Scan(s)));
    AssignNonNegative(map[], Scan(s));
    if total >= OverflowSeconds as real then None else Some(total.Floor)
  }

  lemma {:induction false} AssignNonNegative(acc: map<Unit, real>, ts: seq<Token>)
    requires forall u :: u in acc ==> acc[u] >= 0.0
    requires forall i :: 0 <= i < |ts| ==> ts[i].value >= 0.0
    ensures forall u :: u in Assign(acc, ts) ==> Assign(acc, ts)[u] >= 0.0
    decreases |ts|
  {
    if |ts| > 0 {
      AssignNonNegative(acc[ts[0].unit := ts[0].value], ts[1..]);
    }
  }

  // ---------------------------------------------------------------------------
  // Scanning: what is skipped, what a single token reads as, and case.

  /** Text without digits never starts a match, so a digit-free prefix such as the
      command word `caffeine ` contributes nothing and shifts nothing. */
  lemma {:induction false} ScanSkipsDigitFree(p: string, s: string)
    requires forall i :: 0 <= i < |p| ==> !IsDigit(p[i])
    ensures Scan(p + s) == Scan(s)
    decreases |p|
  {
    if |p| > 0 {
      assert (p + s)[0] == p[0];
      assert (p + s)[1..] == p[1..] + s;
      ScanSkipsDigitFree(p[1..], s);
    } else {
      assert p + s == s;
    }
  }

  /** A string without digits reads as no tokens at all, so it converts to 0. */
  lemma ConvertNoDigits(s: string)
    requires forall i :: 0 <= i < |s| ==> !IsDigit(s[i])
    ensures Scan(s) == []
    ensures ConvertToSeconds(s) == Some(0)
  {
    ScanSkipsDigitFree(s, "");
    assert s + "" == s;
  }

  lemma {:induction false} DigitRunOfDigits(d: string, t: string)
    requires AllDigits(d)
    requires |t| > 0 ==> !IsDigit(t[0])
    ensures DigitRun(d + t) == |d|
    decreases |d|
  {
    if |d| > 0 {
      assert (d + t)[1..] == d[1..] + t;
      DigitRunOfDigits(d[1..], t);
    }
  }

  /** A bare number is one token in seconds: a missing unit means seconds. */
  lemma ScanBareNumber(d: string)
    requires |d| > 0 && AllDigits(d)
    ensures Scan(d) == [Token(DigitsValue(d) as real, Seconds)]
  {
    DigitRunOfDigits(d, "");
    assert d + "" == d;
    assert DigitRun(d) == |d| == NumberEnd(d);
    assert d[..|d|] == d;
    assert DecimalValue(d, "") == DigitsValue(d) as real;
    assert ReadToken(d) == (Token(DigitsValue(d) as real, Seconds), |d|);
    assert d[|d|..] == "";
    assert Scan(d) == [ReadToken(d).0] + Scan(d[|d|..]);
  }

  /** A number followed directly by a unit letter, in either case, is one token in
      that unit. */
  lemma ScanNumberWithUnit(d: string, c: char)
    requires |d| > 0 && AllDigits(d)
    requires UnitOf(c).Some?
    ensures Scan(d + [c]) == [Token(DigitsValue(d) as real, UnitOf(c).value)]
  {
    var s := d + [c];
    DigitRunOfDigits(d, [c]);
    assert s[|d|] == c;
    assert NumberEnd(s) == |d|;
    assert s[..|d|] == d;
    var v := DecimalValue(d, "");
    assert v == DigitsValue(d) as real;
    assert ReadToken(s) == (Token(v, UnitOf(c).value), |d| + 1);
    assert s[|d| + 1..] == "";
  }

  /** The unit the character after a number names, if any. */
  function UnitAfter(rest: string): Option<Unit> {
    if |rest| > 0 then UnitOf(rest[0]) else None
  }

  /** A whole number: digits followed neither by a digit nor by a dot and a digit
      are one token of their value, in the unit the next character names, and in
      seconds when it names none or the digits end the string. */
  lemma ReadTokenWhole(w: string, rest: string)
    requires |w| > 0 && AllDigits(w)
    requires |rest| > 0 ==> !IsDigit(rest[0])
    requires |rest| > 1 ==> !(rest[0] == '.' && IsDigit(rest[1]))
    ensures UnitAfter(rest).Some? ==>
              ReadToken(w + rest) == (Token(DigitsValue(w) as real, UnitAfter(rest).value), |w| + 1)
    ensures UnitAfter(rest).None? ==>
              ReadToken(w + rest) == (Token(DigitsValue(w) as real, Seconds), |w|)
  {
    var s := w + rest;
    NumberEndWhole(w, rest);
    var v := DecimalValue(s[..|w|], "");
    assert v == DigitsValue(w) as real;
    if |rest| > 0 && UnitOf(rest[0]).Some? {
      assert ReadToken(s) == (Token(v, UnitOf(rest[0]).value), |w| + 1);
    } else {
      assert ReadToken(s) == (Token(v, Seconds), |w|);
    }
  }

  /** Where the whole number `w` ends when `rest` follows it. */
  lemma NumberEndWhole(w: string, rest: string)
    requires |w| > 0 && AllDigits(w)
    requires |rest| > 0 ==> !IsDigit(rest[0])
    requires |rest| > 1 ==> !(rest[0] == '.' && IsDigit(rest[1]))
    ensures var s := w + rest;
            && |s| > 0 && IsDigit(s[0])
            && DigitRun(s) == |w| && NumberEnd(s) == |w| && s[..|w|] == w
            && (|rest| > 0 ==> s[|w|] == rest[0])
  {
    var s := w + rest;
    DigitRunOfDigits(w, rest);
    assert s[..|w|] == w;
    if |rest| > 0 {
      assert s[|w|] == rest[0];
    }
    if |rest| > 1 {
      assert s[|w| + 1] == rest[1];
    }
  }

  /** A number with a fraction: `w.f` followed by a non-digit is one token whose
      value, scaled by `10^|f|`, is the integer the digits of `w` and `f` spell
      together (the exact decimal); its unit is read as for a whole number. */
  lemma ReadTokenDecimal(w: string, f: string, rest: string)
    requires |w| > 0 && AllDigits(w) && |f| > 0 && AllDigits(f)
    requires |rest| > 0 ==> !IsDigit(rest[0])
    ensures Scaled(ReadToken(w + "." + f + rest).0.value, Pow10(|f|))
         == (DigitsValue(w) * Pow10(|f|) + DigitsValue(f)) as real
    ensures UnitAfter(rest).Some? ==>
              && ReadToken(w + "." + f + rest).0.unit == UnitAfter(rest).value
              && ReadToken(w + "." + f + rest).1 == |w| + 1 + |f| + 1
    ensures UnitAfter(rest).None? ==>
              && ReadToken(w + "." + f + rest).0.unit == Seconds
              && ReadToken(w + "." + f + rest).1 == |w| + 1 + |f|
  {
    var s := w + "." + f + rest;
    NumberEndDecimal(w, f, rest);
    var e := |w| + 1 + |f|;
    assert ReadToken(s).0.value == DecimalValue(w, f);
    if |rest| > 0 {
      assert s[e] == rest[0];
    } else {
      assert e == |s|;
    }
    FractionScaled(f);
    ScaleSum(DigitsValue(w), FractionValue(f), DigitsValue(f), Pow10(|f|), ReadToken(s).0.value);
  }

  /** Where the number `w.f` ends, and which digits make its two parts. */
  lemma NumberEndDecimal(w: string, f: string, rest: string)
    requires |w| > 0 && AllDigits(w) && |f| > 0 && AllDigits(f)
    requires |rest| > 0 ==> !IsDigit(rest[0])
    ensures var s := w + "." + f + rest;
            && |s| > 0 && IsDigit(s[0])
            && DigitRun(s) == |w| && NumberEnd(s) == |w| + 1 + |f|
            && s[..|w|] == w && s[|w| + 1..|w| + 1 + |f|] == f
            && s[|w| + 1 + |f|..] == rest
  {
    var s := w + "." + f + rest;
    var t := "." + f + rest;
    assert s == w + t;
    DigitRunOfDigits(w, t);
    assert s[|w|] == '.' && s[|w| + 1] == f[0];
    assert s[|w| + 1..] == f + rest;
    DigitRunOfDigits(f, rest);
    assert s[..|w|] == w;
    assert s[|w| + 1..|w| + 1 + |f|] == f;
    assert s[|w| + 1 + |f|..] == rest;
  }

  /** The arithmetic step of `ReadTokenDecimal`: a whole part plus a fraction whose
      scaled value is `y`, scaled, is the whole part shifted plus `y`. */
  lemma ScaleSum(whole: nat, x: real, y: nat, p: nat, v: real)
    requires Scaled(x, p) == y as real && v == whole as real + x
    ensures Scaled(v, p) == (whole * p + y) as real
  {
    ProductAsReal(whole, p);
  }

  /** A number followed by a character that is neither a digit nor a unit letter is
      one token in seconds: a missing unit means seconds anywhere in the message. */
  lemma ScanNumberThenOther(d: string, c: char)
    requires |d| > 0 && AllDigits(d) && !IsDigit(c) && UnitOf(c).None?
    ensures Scan(d + [c]) == [Token(DigitsValue(d) as real, Seconds)]
  {
    var s := d + [c];
    ReadTokenWhole(d, [c]);
    assert s[|d|..] == [c];
    assert Scan(s) == [ReadToken(s).0] + Scan(s[|d|..]);
    assert Scan([c]) == Scan([c][1..]);
  }

  /** Two characters the pattern cannot tell apart: the same digit, both or neither
      a dot, and the same unit (or none) under case-insensitive matching. */
  predicate SameClass(c: char, d: char) {
    && (IsDigit(c) || IsDigit(d) ==> c == d)
    && (c == '.' <==> d == '.')
    && UnitOf(c) == UnitOf(d)
  }

  predicate Similar(s: string, t: string) {
    |s| == |t| && forall i :: 0 <= i < |s| ==> SameClass(s[i], t[i])
  }

  lemma {:induction false} DigitRunSimilar(s: string, t: string)
    requires Similar(s, t)
    ensures DigitRun(s) == DigitRun(t)
    ensures s[..DigitRun(s)] == t[..DigitRun(t)]
    decreases |s|
  {
    if |s| > 0 && IsDigit(s[0]) {
      assert Similar(s[1..], t[1..]);
      DigitRunSimilar(s[1..], t[1..]);
      var n := DigitRun(s);
      assert s[..n] == [s[0]] + s[1..][..n - 1];
      assert t[..n] == [t[0]] + t[1..][..n - 1];
    }
  }

  lemma SimilarSuffix(s: string, t: string, k: nat)
    requires Similar(s, t) && k <= |s|
    ensures Similar(s[k..], t[k..])
  {
    assert forall i :: 0 <= i < |s| - k ==> s[k..][i] == s[k + i] && t[k..][i] == t[k + i];
  }

  lemma NumberEndSimilar(s: string, t: string)
    requires Similar(s, t)
    requires |s| > 0 && IsDigit(s[0])
    ensures IsDigit(t[0])
    ensures DigitRun(s) == DigitRun(t) && NumberEnd(s) == NumberEnd(t)
    ensures s[..NumberEnd(s)] == t[..NumberEnd(t)]
  {
    DigitRunSimilar(s, t);
    var w := DigitRun(s);
    var e := NumberEnd(s);
    if w + 1 < |s| && s[w] == '.' && IsDigit(s[w + 1]) {
      SimilarSuffix(s, t, w + 1);
      DigitRunSimilar(s[w + 1..], t[w + 1..]);
    }
    assert NumberEnd(s) == NumberEnd(t);
    forall i | 0 <= i < e
      ensures s[i] == t[i]
    {
      if i < w {
        assert s[..w][i] == s[i];
      } else if i > w {
        assert s[w + 1..e][i - w - 1] == s[i];
      }
      assert SameClass(s[i], t[i]);
    }
  }

  lemma ReadTokenSimilar(s: string, t: string)
    requires Similar(s, t)
    requires |s| > 0 && IsDigit(s[0])
    ensures IsDigit(t[0])
    ensures ReadToken(s) == ReadToken(t)
  {
    NumberEndSimilar(s, t);
    var w := DigitRun(s);
    var e := NumberEnd(s);
    assert s[..w] == s[..e][..w] && t[..w] == t[..e][..w];
    var frac := if e == w then "" else s[w + 1..e];
    if e != w {
      assert s[w + 1..e] == s[..e][w + 1..];
      assert t[w + 1..e] == t[..e][w + 1..];
    }
    var value := DecimalValue(s[..w], frac);
    assert value == DecimalValue(t[..w], if e == w then "" else t[w + 1..e]);
    if e < |s| {
      assert SameClass(s[e], t[e]);
    }
  }

  /** The scan sees only character classes, so indistinguishable strings read alike. */
  lemma {:induction false} ScanSimilar(s: string, t: string)
    requires Similar(s, t)
    ensures Scan(s) == Scan(t)
    decreases |s|
  {
    if |s| > 0 {
      if !IsDigit(s[0]) {
        assert Similar(s[1..], t[1..]);
        ScanSimilar(s[1..], t[1..]);
      } else {
        ReadTokenSimilar(s, t);
        var n := ReadToken(s).1;
        assert Similar(s[n..], t[n..]);
        ScanSimilar(s[n..], t[n..]);
      }
    }
  }

  function LowerChar(c: char): char {
    if 'A' <= c <= 'Z' then (c as int + 32) as char else c
  }

  function LowerCase(s: string): (r: string)
    ensures |r| == |s|
  {
    seq(|s|, i requires 0 <= i < |s| => LowerChar(s[i]))
  }

  /** Exactly the ten letters of the class `[smhdw]` under `re.I` select a unit. */
  lemma UnitLetters(c: char)
    ensures UnitOf(c).Some? <==> c in "smhdwSMHDW"
  {
  }

  /** A letter and its lower-case form select the same unit. */
  lemma UnitOfIgnoresCase(c: char)
    ensures UnitOf(c) == UnitOf(LowerChar(c))
  {
  }

  /** The `UNITS` table: each lower-case letter names its `timedelta` keyword. */
  lemma UnitTable()
    ensures UnitOf('s') == Some(Seconds) && UnitOf('m') == Some(Minutes)
    ensures UnitOf('h') == Some(Hours) && UnitOf('d') == Some(Days)
    ensures UnitOf('w') == Some(Weeks)
  {
  }

  /** The sizes `timedelta` gives its keywords, each in terms of the next smaller one:
      a week is seven days, a day 24 hours, an hour and a minute 60 of the next. */
  lemma UnitSizes()
    ensures Multiplier(Seconds) == 1
    ensures Multiplier(Minutes) == 60 * Multiplier(Seconds)
    ensures Multiplier(Hours) == 60 * Multiplier(Minutes)
    ensures Multiplier(Days) == 24 * Multiplier(Hours)
    ensures Multiplier(Weeks) == 7 * Multiplier(Days)
  {
  }

  /** Unit letters match in either case (`re.I`): lower-casing the whole expression
      changes neither the tokens nor the converted duration. */
  lemma ConvertIgnoresCase(s: string)
    ensures Scan(LowerCase(s)) == Scan(s)
    ensures ConvertToSeconds(LowerCase(s)) == ConvertToSeconds(s)
  {
    assert Similar(s, LowerCase(s));
    ScanSimilar(s, LowerCase(s));
  }

  /** A character that no token can end on while still wanting more input. */
  predicate IsBreak(c: char) {
    !IsDigit(c) && c != '.'
  }

  lemma {:induction false} DigitRunAppend(a: string, b: string)
    requires |a| > 0 && !IsDigit(a[|a| - 1])
    ensures DigitRun(a + b) == DigitRun(a) < |a|
    decreases |a|
  {
    if IsDigit(a[0]) {
      assert (a + b)[1..] == a[1..] + b;
      DigitRunAppend(a[1..], b);
    }
  }

  lemma NumberEndAppend(a: string, b: string)
    requires |a| > 0 && IsDigit(a[0]) && IsBreak(a[|a| - 1])
    ensures (a + b)[0] == a[0]
    ensures DigitRun(a + b) == DigitRun(a)
    ensures NumberEnd(a + b) == NumberEnd(a) < |a|
  {
    DigitRunAppend(a, b);
    var w := DigitRun(a);
    if w + 1 < |a| && a[w] == '.' && IsDigit(a[w + 1]) {
      NumberEndAppendFraction(a, b, w);
    } else {
      NumberEndAppendWhole(a, b, w);
    }
  }

  /** `NumberEndAppend` when the number in `a` has a fraction. */
  lemma NumberEndAppendFraction(a: string, b: string, w: nat)
    requires |a| > 0 && IsDigit(a[0]) && IsBreak(a[|a| - 1])
    requires w == DigitRun(a) == DigitRun(a + b)
    requires w + 1 < |a| && a[w] == '.' && IsDigit(a[w + 1])
    ensures NumberEnd(a + b) == NumberEnd(a) < |a|
  {
    var s := a + b;
    assert s[w] == a[w] && s[w + 1] == a[w + 1];
    assert s[w + 1..] == a[w + 1..] + b;
    DigitRunAppend(a[w + 1..], b);
    NumberEndOfFraction(s, w);
    NumberEndOfFraction(a, w);
  }

  /** A dot and a digit after the digit run start a fraction. */
  lemma NumberEndOfFraction(s: string, w: nat)
    requires |s| > 0 && IsDigit(s[0]) && w == DigitRun(s)
    requires w + 1 < |s| && s[w] == '.' && IsDigit(s[w + 1])
    ensures NumberEnd(s) == w + 1 + DigitRun(s[w + 1..])
  {
  }

  /** `NumberEndAppend` when the number in `a` is whole. */
  lemma NumberEndAppendWhole(a: string, b: string, w: nat)
    requires |a| > 0 && IsDigit(a[0]) && IsBreak(a[|a| - 1])
    requires w == DigitRun(a) == DigitRun(a + b) && w < |a|
    requires !(w + 1 < |a| && a[w] == '.' && IsDigit(a[w + 1]))
    ensures NumberEnd(a + b) == NumberEnd(a) == w
  {
    var s := a + b;
    assert s[w] == a[w];
    if a[w] == '.' {
      assert w + 1 < |a| && s[w + 1] == a[w + 1];
    }
  }

  lemma ReadTokenAppend(a: string, b: string)
    requires |a| > 0 && IsDigit(a[0]) && IsBreak(a[|a| - 1])
    ensures ReadToken(a + b) == ReadToken(a)
  {
    var s := a + b;
    NumberEndAppend(a, b);
    var w := DigitRun(a);
    var e := NumberEnd(a);
    assert s[..w] == a[..w];
    if e != w {
      assert s[w + 1..e] == a[w + 1..e];
    }
    assert s[e] == a[e];
  }

  /** A string that ends on a break (neither a digit nor a dot) scans the same
      whether or not more text follows it: tokens never straddle such a break. */
  lemma {:induction false} ScanAppend(a: string, b: string)
    requires |a| > 0 && IsBreak(a[|a| - 1])
    ensures Scan(a + b) == Scan(a) + Scan(b)
    decreases |a|, 2
  {
    if !IsDigit(a[0]) {
      ScanAppendSkip(a, b);
    } else {
      ScanAppendToken(a, b);
    }
  }

  lemma {:induction false} ScanAppendSkip(a: string, b: string)
    requires |a| > 0 && IsBreak(a[|a| - 1]) && !IsDigit(a[0])
    ensures Scan(a + b) == Scan(a) + Scan(b)
    decreases |a|, 1
  {
    var s := a + b;
    assert s[0] == a[0];
    assert s[1..] == a[1..] + b;
    if |a| == 1 {
      assert a[1..] == "";
      assert s[1..] == b;
    } else {
      ScanAppend(a[1..], b);
    }
  }

  lemma {:induction false} ScanAppendToken(a: string, b: string)
    requires |a| > 0 && IsBreak(a[|a| - 1]) && IsDigit(a[0])
    ensures Scan(a + b) == Scan(a) + Scan(b)
    decreases |a|, 1
  {
    ScanAppendHead(a, b);
    ScanOfToken(a);
    ScanAppendTail(a, b, ReadToken(a).1);
    Stitch(Scan(a + b), Scan(a), Scan(b), Scan(a[ReadToken(a).1..]), Scan((a + b)[ReadToken(a).1..]), ReadToken(a).0);
  }

  /** Sequence bookkeeping for the step above, kept apart from `Scan`. */
  lemma Stitch(ab: seq<Token>, x: seq<Token>, y: seq<Token>, xr: seq<Token>, abr: seq<Token>, t: Token)
    requires ab == [t] + abr && x == [t] + xr && abr == xr + y
    ensures ab == x + y
  {
  }

  /** The token at the front of `a` is also the token at the front of `a + b`. */
  lemma ScanAppendHead(a: string, b: string)
    requires |a| > 0 && IsBreak(a[|a| - 1]) && IsDigit(a[0])
    ensures Scan(a + b) == [ReadToken(a).0] + Scan((a + b)[ReadToken(a).1..])
  {
    assert (a + b)[0] == a[0];
    ReadTokenAppend(a, b);
    ScanOfToken(a + b);
  }

  lemma {:induction false} ScanAppendTail(a: string, b: string, n: nat)
    requires |a| > 0 && IsBreak(a[|a| - 1]) && 0 < n <= |a|
    ensures Scan((a + b)[n..]) == Scan(a[n..]) + Scan(b)
    decreases |a|, 0
  {
    var rest := a[n..];
    assert (a + b)[n..] == rest + b;
    if n == |a| {
      assert rest == "";
      assert rest + b == b;
    } else {
      assert rest[|rest| - 1] == a[|a| - 1];
      ScanAppend(rest, b);
    }
  }

  /** One step of the scan at a digit: the token read there, then the rest. */
  lemma ScanOfToken(s: string)
    requires |s| > 0 && IsDigit(s[0])
    ensures Scan(s) == [ReadToken(s).0] + Scan(s[ReadToken(s).1..])
  {
  }

  /** `prefix + str(n)` with a digit-free prefix converts to `n` seconds. */
  lemma ConvertBareNumber(prefix: string, n: nat)
    requires forall i :: 0 <= i < |prefix| ==> !IsDigit(prefix[i])
    requires n < OverflowSeconds
    ensures ConvertToSeconds(prefix + NatToString(n)) == Some(n)
  {
    ScanSkipsDigitFree(prefix, NatToString(n));
    ScanBareNumber(NatToString(n));
    assert [Token(n as real, Seconds)][1..] == [];
    assert Assign(map[], Scan(NatToString(n))) == map[Seconds := n as real];
  }

  /** `prefix + str(n) + c` with a unit letter `c` converts to `n` of that unit. */
  lemma ConvertNumberWithUnit(prefix: string, n: nat, c: char)
    requires forall i :: 0 <= i < |prefix| ==> !IsDigit(prefix[i])
    requires UnitOf(c).Some?
    requires n * Multiplier(UnitOf(c).value) < OverflowSeconds
    ensures ConvertToSeconds(prefix + NatToString(n) + [c]) == Some(n * Multiplier(UnitOf(c).value))
  {
    var u := UnitOf(c).value;
    assert prefix + NatToString(n) + [c] == prefix + (NatToString(n) + [c]);
    ScanSkipsDigitFree(prefix, NatToString(n) + [c]);
    ScanNumberWithUnit(NatToString(n), c);
    var ts := [Token(n as real, u)];
    assert ts[1..] == [];
    var m := Assign(map[], ts);
    assert m == Assign(map[][u := n as real], []);
    assert m == map[u := n as real];
    assert Total(m) == (n * Multiplier(u)) as real;
  }

  // ---------------------------------------------------------------------------
  // Folding tokens: the last token of each unit wins.

  /** The value the source keeps for unit `u`: that of the last token in `u`. */
  predicate IsLastOf(ts: seq<Token>, i: int, u: Unit) {
    0 <= i < |ts| && ts[i].unit == u && forall j :: i < j < |ts| ==> ts[j].unit != u
  }

  /** A unit has a value exactly when some token names it (or it had one before), and
      that value is the one of the LAST token naming it. */
  lemma {:induction false} AssignKeepsLast(acc: map<Unit, real>, ts: seq<Token>, u: Unit)
    ensures u in Assign(acc, ts) <==> (u in acc || exists i :: 0 <= i < |ts| && ts[i].unit == u)
    ensures forall i :: IsLastOf(ts, i, u) ==> Assign(acc, ts)[u] == ts[i].value
    ensures (forall i :: 0 <= i < |ts| ==> ts[i].unit != u) && u in acc ==>
              Assign(acc, ts)[u] == acc[u]
    decreases |ts|
  {
    if |ts| > 0 {
      var acc' := acc[ts[0].unit := ts[0].value];
      AssignKeepsLast(acc', ts[1..], u);
      if exists i :: 0 <= i < |ts| && ts[i].unit == u {
        var i :| 0 <= i < |ts| && ts[i].unit == u;
        if i > 0 {
          assert ts[1..][i - 1].unit == u;
        }
      }
      forall i | IsLastOf(ts, i, u)
        ensures Assign(acc, ts)[u] == ts[i].value
      {
        if i > 0 {
          assert IsLastOf(ts[1..], i - 1, u);
        } else {
          assert forall j :: 0 <= j < |ts[1..]| ==> ts[1..][j].unit != u by {
            forall j | 0 <= j < |ts[1..]| ensures ts[1..][j].unit != u {
              assert ts[1..][j] == ts[j + 1];
            }
          }
        }
      }
      if (forall i :: 0 <= i < |ts| ==> ts[i].unit != u) {
        assert forall j :: 0 <= j < |ts[1..]| ==> ts[1..][j].unit != u by {
          forall j | 0 <= j < |ts[1..]| ensures ts[1..][j].unit != u {
            assert ts[1..][j] == ts[j + 1];
          }
        }
      }
    }
  }

  /** Reference reading of the fold: the value of the last token in unit `u`, or
      nothing (0) when no token names `u`. */
  function LastValue(ts: seq<Token>, u: Unit): real
    decreases |ts|
  {
    if |ts| == 0 then 0.0
    else if ts[|ts| - 1].unit == u then ts[|ts| - 1].value
    else LastValue(ts[..|ts| - 1], u)
  }

  /** Reference total: each unit's last value times that unit's size in seconds. */
  function LastTotal(ts: seq<Token>): real {
    LastValue(ts, Seconds) * Multiplier(Seconds) as real
    + LastValue(ts, Minutes) * Multiplier(Minutes) as real
    + LastValue(ts, Hours) * Multiplier(Hours) as real
    + LastValue(ts, Days) * Multiplier(Days) as real
    + LastValue(ts, Weeks) * Multiplier(Weeks) as real
  }

  lemma {:induction false} AssignSnoc(acc: map<Unit, real>, ts: seq<Token>, t: Token)
    ensures Assign(acc, ts + [t]) == Assign(acc, ts)[t.unit := t.value]
    decreases |ts|
  {
    if |ts| == 0 {
      assert ts + [t] == [t];
      assert [t][1..] == [];
    } else {
      assert (ts + [t])[0] == ts[0];
      assert (ts + [t])[1..] == ts[1..] + [t];
      AssignSnoc(acc[ts[0].unit := ts[0].value], ts[1..], t);
    }
  }

  /** The dict the comprehension builds holds, for every unit, the reference value. */
  lemma {:induction false} FieldIsLastValue(ts: seq<Token>, u: Unit)
    ensures Field(Assign(map[], ts), u) == LastValue(ts, u)
    decreases |ts|
  {
    if |ts| > 0 {
      var init := ts[..|ts| - 1];
      var t := ts[|ts| - 1];
      assert ts == init + [t];
      AssignSnoc(map[], init, t);
      FieldIsLastValue(init, u);
    }
  }

  /** `convert_to_seconds` for every input: sum, over the units, the last token in
      each unit times the unit's size; `timedelta` overflows from 1000000000 days on,
      and otherwise `int()` truncates the total. */
  lemma ConvertMeaning(s: string)
    ensures var total := LastTotal(Scan(s));
            ConvertToSeconds(s) == if total >= OverflowSeconds as real then None else Some(total.Floor)
  {
    TotalIsLastTotal(Scan(s));
  }

  lemma TotalIsLastTotal(ts: seq<Token>)
    ensures Total(Assign(map[], ts)) == LastTotal(ts)
  {
    FieldIsLastValue(ts, Seconds);
    FieldIsLastValue(ts, Minutes);
    FieldIsLastValue(ts, Hours);
    FieldIsLastValue(ts, Days);
    FieldIsLastValue(ts, Weeks);
  }

  // ---------------------------------------------------------------------------
  // Two tokens: distinct units add up, a repeated unit keeps the later value.

  lemma ScanTwoTokens(n: nat, c: char, m: nat, c': char)
    requires UnitOf(c).Some? && UnitOf(c').Some?
    ensures Scan(NatToString(n) + [c] + " " + NatToString(m) + [c'])
         == [Token(n as real, UnitOf(c).value), Token(m as real, UnitOf(c').value)]
  {
    var x := NatToString(n) + [c];
    var a := x + " ";
    var b := NatToString(m) + [c'];
    ScanTokenThenSpace(n, c);
    ScanNumberWithUnit(NatToString(m), c');
    assert a[|a| - 1] == ' ';
    ScanAppend(a, b);
    assert NatToString(n) + [c] + " " + NatToString(m) + [c'] == a + b;
  }

  lemma ScanTokenThenSpace(n: nat, c: char)
    requires UnitOf(c).Some?
    ensures Scan(NatToString(n) + [c] + " ") == [Token(n as real, UnitOf(c).value)]
  {
    var x := NatToString(n) + [c];
    ScanAppend(x, " ");
    ScanNumberWithUnit(NatToString(n), c);
    assert Scan(" ") == [];
    assert Scan(x) + [] == Scan(x);
  }

  /** `"<n><u> <m><u>"` is worth `m` units, not `n + m`: the later token replaces the
      earlier one. */
  lemma ConvertRepeatedUnitOverrides(n: nat, m: nat, c: char, c': char)
    requires UnitOf(c).Some? && UnitOf(c') == UnitOf(c)
    requires m * Multiplier(UnitOf(c).value) < OverflowSeconds
    ensures ConvertToSeconds(NatToString(n) + [c] + " " + NatToString(m) + [c'])
         == Some(m * Multiplier(UnitOf(c).value))
  {
    var u := UnitOf(c).value;
    ScanTwoTokens(n, c, m, c');
    var ts := [Token(n as real, u), Token(m as real, u)];
    assert IsLastOf(ts, 1, u);
    AssignKeepsLast(map[], ts, u);
    forall v: Unit | v != u ensures v !in Assign(map[], ts) {
      AssignKeepsLast(map[], ts, v);
    }
    assert Total(Assign(map[], ts)) == (m * Multiplier(u)) as real;
  }

  /** Two fields in different units add up in seconds. */
  lemma TotalOfTwo(u: Unit, u': Unit, x: nat, y: nat)
    requires u != u'
    ensures Total(map[u := x as real, u' := y as real]) == (x * Multiplier(u) + y * Multiplier(u')) as real
  {
    var k, k' := Multiplier(u), Multiplier(u');
    assert (x * k) as real == x as real * k as real;
    assert (y * k') as real == y as real * k' as real;
  }

  /** `"<n><u> <m><v>"` with different units is worth both. */
  lemma ConvertDistinctUnitsAdd(n: nat, m: nat, c: char, c': char, seconds: nat)
    requires UnitOf(c).Some? && UnitOf(c').Some? && UnitOf(c) != UnitOf(c')
    requires seconds == n * Multiplier(UnitOf(c).value) + m * Multiplier(UnitOf(c').value)
    requires seconds < OverflowSeconds
    ensures ConvertToSeconds(NatToString(n) + [c] + " " + NatToString(m) + [c']) == Some(seconds)
  {
    ScanTwoTokens(n, c, m, c');
    ConvertTwoUnits(NatToString(n) + [c] + " " + NatToString(m) + [c'],
                    n, UnitOf(c).value, m, UnitOf(c').value, seconds);
  }

  lemma ConvertExactlyOneDay()
    ensures ConvertToSeconds("caffeine 86400s") == Some(86400)
  {
    var p := "caffeine ";
    CommandWordDigitFree();
    NatToStringSpells86400();
    ConvertSpelled(p, 86400, 's', "86400", "caffeine 86400s", 86400);
  }

  /** The conversion of `text`, spelled as `prefix + digits + c` where `digits`
      renders `n`, so that the examples can be stated on plain text. */
  lemma ConvertSpelled(prefix: string, n: nat, c: char, digits: string, text: string, seconds: nat)
    requires forall i :: 0 <= i < |prefix| ==> !IsDigit(prefix[i])
    requires UnitOf(c).Some? && seconds == n * Multiplier(UnitOf(c).value)
    requires seconds < OverflowSeconds
    requires NatToString(n) == digits && text == prefix + digits + [c]
    ensures ConvertToSeconds(text) == Some(seconds)
  {
    ConvertNumberWithUnit(prefix, n, c);
  }

  /** The command word and its space hold no digit. */
  lemma CommandWordDigitFree()
    ensures forall i :: 0 <= i < |"caffeine "| ==> !IsDigit("caffeine "[i])
  {
  }

  /** A digit-free prefix does not change the converted duration. */
  lemma ConvertSkipsDigitFree(p: string, t: string)
    requires forall i :: 0 <= i < |p| ==> !IsDigit(p[i])
    ensures ConvertToSeconds(p + t) == ConvertToSeconds(t)
  {
    ScanSkipsDigitFree(p, t);
  }

  lemma ConvertOneDayOneSecond()
    ensures ConvertToSeconds("caffeine 1d 1s") == Some(86401)
  {
    var p := "caffeine ";
    var t := NatToString(1) + ['d'] + " " + NatToString(1) + ['s'];
    assert t == "1d 1s" by {
      assert NatToString(1) == "1";
    }
    assert UnitOf('d') == Some(Days) && UnitOf('s') == Some(Seconds);
    ConvertDistinctUnitsAdd(1, 1, 'd', 's', 86401);
    CommandWordDigitFree();
    ConvertSkipsDigitFree(p, t);
    assert p + t == "caffeine 1d 1s";
  }

  /** Renderings the examples rely on, each proved on its own so that the examples'
      proof obligations stay small. */
  lemma NatToStringSpells86400()
    ensures NatToString(86400) == "86400"
  {
  }

  lemma NatToStringSpells30()
    ensures NatToString(30) == "30"
  {
  }

  lemma NatToStringSpells2()
    ensures NatToString(2) == "2"
  {
  }

  lemma ConvertThirtyMinutes()
    ensures ConvertToSeconds("caffeine 30m") == Some(1800)
  {
    var p := "caffeine ";
    CommandWordDigitFree();
    NatToStringSpells30();
    ConvertSpelled(p, 30, 'm', "30", "caffeine 30m", 1800);
  }

  /** `w` selects weeks: one week is 604800 seconds, seven times a day. */
  lemma ConvertOneWeek()
    ensures ConvertToSeconds("caffeine 1w") == Some(604800)
  {
    CommandWordDigitFree();
    assert NatToString(1) == "1";
    ConvertSpelled("caffeine ", 1, 'w', "1", "caffeine 1w", 604800);
  }

  lemma ConvertOneThenTwoMinutes()
    ensures ConvertToSeconds("caffeine 1m 2m") == Some(120)
  {
    var p := "caffeine ";
    var t := NatToString(1) + ['m'] + " " + NatToString(2) + ['m'];
    assert t == "1m 2m" by {
      assert NatToString(1) == "1" && NatToString(2) == "2";
    }
    assert p + t == "caffeine 1m 2m";
    assert UnitOf('m') == Some(Minutes);
    ConvertRepeatedUnitOverrides(1, 2, 'm', 'm');
    assert ConvertToSeconds(t) == Some(120);
    CommandWordDigitFree();
    ConvertSkipsDigitFree(p, t);
  }

  lemma ConvertUpperCaseUnit()
    ensures ConvertToSeconds("caffeine 2H") == Some(7200)
  {
    var p := "caffeine ";
    CommandWordDigitFree();
    NatToStringSpells2();
    ConvertSpelled(p, 2, 'H', "2", "caffeine 2H", 7200);
  }

  lemma ScanFractionalHour()
    ensures Scan("1.5h") == [Token(1.5, Hours)]
  {
    var t := "1.5h";
    assert DigitRun(t[3..]) == 0;
    assert DigitRun(t[2..]) == 1;
    assert DigitRun(t[1..]) == 0;
    assert DigitRun(t) == 1;
    assert NumberEnd(t) == 3;
    assert t[..1] == "1" && t[2..3] == "5";
    assert DigitsValue("1") == 1 && DigitsValue("5") == 5;
    assert DecimalValue("1", "5") == 1.5;
    assert ReadToken(t) == (Token(1.5, Hours), 4);
    assert t[4..] == "";
  }

  lemma ConvertFractionalHour()
    ensures ConvertToSeconds("caffeine 1.5h") == Some(5400)
  {
    var p := "caffeine ";
    CommandWordDigitFree();
    ScanSkipsDigitFree(p, "1.5h");
    assert p + "1.5h" == "caffeine 1.5h";
    ScanFractionalHour();
    var ts := [Token(1.5, Hours)];
    assert ts[1..] == [];
    assert Assign(map[], ts) == map[Hours := 1.5];
    assert Total(map[Hours := 1.5]) == 5400.0;
    assert (5400.0).Floor == 5400;
  }

  /** A number with no unit, a space, then a number with a unit: two tokens, the
      first in seconds. */
  lemma ScanBareThenUnit(d: string, e: string, c: char)
    requires |d| > 0 && AllDigits(d) && |e| > 0 && AllDigits(e) && UnitOf(c).Some?
    ensures Scan(d + " " + e + [c])
         == [Token(DigitsValue(d) as real, Seconds), Token(DigitsValue(e) as real, UnitOf(c).value)]
  {
    ScanNumberThenSpace(d);
    ScanNumberWithUnit(e, c);
    Regroup(d + " ", e, [c]);
    ScanJoin(d + " ", e + [c], Token(DigitsValue(d) as real, Seconds),
             Token(DigitsValue(e) as real, UnitOf(c).value));
  }

  /** A number and a space: one token in seconds, and the space ends it. */
  lemma ScanNumberThenSpace(d: string)
    requires |d| > 0 && AllDigits(d)
    ensures Scan(d + " ") == [Token(DigitsValue(d) as real, Seconds)]
    ensures |d + " "| > 0 && IsBreak((d + " ")[|d + " "| - 1])
  {
    ScanNumberThenOther(d, ' ');
    assert d + " " == d + [' '];
  }

  lemma Regroup(x: string, y: string, z: string)
    ensures x + y + z == x + (y + z)
  {
  }

  /** `ScanAppend` for two halves that each scan to one token. */
  lemma ScanJoin(a: string, b: string, t1: Token, t2: Token)
    requires |a| > 0 && IsBreak(a[|a| - 1]) && Scan(a) == [t1] && Scan(b) == [t2]
    ensures Scan(a + b) == [t1, t2]
  {
    ScanAppend(a, b);
    assert [t1] + [t2] == [t1, t2];
  }

  /** Two tokens in different units add up. */
  lemma ConvertTwoUnits(s: string, n: nat, u: Unit, m: nat, u': Unit, total: nat)
    requires Scan(s) == [Token(n as real, u), Token(m as real, u')] && u != u'
    requires total == n * Multiplier(u) + m * Multiplier(u') && total < OverflowSeconds
    ensures ConvertToSeconds(s) == Some(total)
  {
    var ts := [Token(n as real, u), Token(m as real, u')];
    assert ts[1..] == [Token(m as real, u')] && ts[1..][1..] == [];
    assert Assign(map[], ts) == Assign(map[u := n as real], ts[1..]);
    assert Assign(map[u := n as real], ts[1..])
        == Assign(map[u := n as real][u' := m as real], ts[1..][1..]);
    assert Assign(map[], ts) == map[u := n as real, u' := m as real];
    TotalOfTwo(u, u', n, m);
    ConvertFromTotal(s, total);
  }

  /** `ConvertTwoUnits` when the first token is in seconds. */
  lemma ConvertSecondsThenUnit(s: string, n: nat, m: nat, u: Unit, total: nat)
    requires Scan(s) == [Token(n as real, Seconds), Token(m as real, u)] && u != Seconds
    requires total == n + m * Multiplier(u) && total < OverflowSeconds
    ensures ConvertToSeconds(s) == Some(total)
  {
    InSeconds(n);
    ConvertTwoUnits(s, n, Seconds, m, u, total);
  }

  lemma InSeconds(n: nat)
    ensures n * Multiplier(Seconds) == n
  {
  }

  /** A whole-second total below the limit is the result. */
  lemma ConvertFromTotal(s: string, k: nat)
    requires Total(Assign(map[], Scan(s))) == k as real && k < OverflowSeconds
    ensures ConvertToSeconds(s) == Some(k)
  {
    assert (k as real).Floor == k;
  }

  /** A number with no unit, a space, then a number with a unit other than seconds,
      after any digit-free prefix: the first counts as seconds and the two add up. */
  lemma ConvertBareThenUnit(prefix: string, d: string, e: string, c: char,
                            text: string, seconds: nat)
    requires forall i :: 0 <= i < |prefix| ==> !IsDigit(prefix[i])
    requires |d| > 0 && AllDigits(d) && |e| > 0 && AllDigits(e)
    requires UnitOf(c).Some? && UnitOf(c).value != Seconds
    requires seconds == DigitsValue(d) + DigitsValue(e) * Multiplier(UnitOf(c).value)
    requires seconds < OverflowSeconds
    requires text == prefix + (d + " " + e + [c])
    ensures ConvertToSeconds(text) == Some(seconds)
  {
    var s := d + " " + e + [c];
    var n, m, u := DigitsValue(d), DigitsValue(e), UnitOf(c).value;
    ScanBareThenUnit(d, e, c);
    ConvertSecondsThenUnit(s, n, m, u, seconds);
    ConvertSkipsDigitFree(prefix, s);
  }

  /** `"caffeine 5 10m"` is five seconds and ten minutes. */
  lemma ConvertSecondsThenMinutes()
    ensures ConvertToSeconds("caffeine 5 10m") == Some(605)
  {
    var p := "caffeine ";
    CommandWordDigitFree();
    assert DigitsValue("5") == 5 && DigitsValue("10") == 10;
    ConvertBareThenUnit(p, "5", "10", 'm', "caffeine 5 10m", 605);
  }

  /** `1.25h` is read to the last fraction digit. */
  lemma ReadQuarterPastOne()
    ensures ReadToken("1.25h") == (Token(1.25, Hours), 5)
  {
    var s := "1" + "." + "25" + "h";
    assert s == "1.25h";
    QuarterDigits();
    ReadTokenDecimal("1", "25", "h");
    Unscale(ReadToken(s).0.value);
    assert UnitOf('h') == Some(Hours);
  }

  lemma QuarterDigits()
    ensures DigitsValue("1") == 1 && DigitsValue("25") == 25 && Pow10(|"25"|) == 100
  {
    assert "25"[..1] == "2";
  }

  lemma Unscale(v: real)
    requires Scaled(v, 100) == 125.0
    ensures v == 1.25
  {
  }

  /** `"caffeine 1.25h"` is an hour and a quarter: every fraction digit counts. */
  lemma ConvertQuarterPastOneHour()
    ensures ConvertToSeconds("caffeine 1.25h") == Some(4500)
  {
    var t := "1.25h";
    ReadQuarterPastOne();
    ScanOfToken(t);
    assert t[5..] == "";
    var ts := [Token(1.25, Hours)];
    assert Scan(t) == ts;
    assert ts[1..] == [];
    assert Assign(map[], ts) == map[Hours := 1.25];
    assert Total(map[Hours := 1.25]) == 4500.0;
    var p := "caffeine ";
    CommandWordDigitFree();
    ConvertSkipsDigitFree(p, t);
    assert p + t == "caffeine 1.25h";
  }
}

=== FILE: humanize.dfy ===
/** `prettify_seconds` (server.py): a mixed-radix split of a number of seconds into
    days, hours, minutes and seconds, rendered as `"<n> <unit>[s]"` parts joined by
    `", "`, with zero parts left out. */
module Humanize {
  import opened Text

  datatype TimeUnit = Day | Hour | Minute | Second

  function Size(u: TimeUnit): (k: nat)
    ensures k > 0
  {
    match u
    case Day => 86400
    case Hour => 3600
    case Minute => 60
    case Second => 1
  }

  function Name(u: TimeUnit): (name: string)
    ensures |name| > 0 && name[|name| - 1] != 's'
  {
    match u
    case Day => "day"
    case Hour => "hour"
    case Minute => "minute"
    case Second => "second"
  }

  /** The radix list the loop walks, largest unit first. */
  const Radix: seq<TimeUnit> := [Day, Hour, Minute, Second]

  /** One emitted component: a count of some unit. */
  datatype Part = Part(count: int, unit: TimeUnit)

  /** The loop: for each unit, `n, sec = divmod(sec, size)` and `n` is kept when it
      is not zero. Python's `divmod` floors; so do Dafny's `/` and `%` for a positive
      divisor, which makes this exact for negative `sec` too. */
  function Decompose(sec: int, units: seq<TimeUnit>): seq<Part>
    decreases |units|
  {
    if |units| == 0 then []
    else
      var n := sec / Size(units[0]);
      var rest := Decompose(sec % Size(units[0]), units[1..]);
      if n != 0 then [Part(n, units[0])] + rest else rest
  }

  function Parts(sec: int): seq<Part> {
    Decompose(sec, Radix)
  }

  /** `f"{n} {u}" + "s" * (n > 1)`: the plural ending only for counts above one. */
  function Render(p: Part): (r: string)
    ensures |r| > 0
    ensures r[|r| - 1] == 's' <==> p.count > 1
  {
    IntToString(p.count) + " " + Name(p.unit) + (if p.count > 1 then "s" else "")
  }

  function RenderAll(parts: seq<Part>): (texts: seq<string>)
    ensures |texts| == |parts|
    ensures forall i :: 0 <= i < |parts| ==> texts[i] == Render(parts[i])
    decreases |parts|
  {
    if |parts| == 0 then [] else [Render(parts[0])] + RenderAll(parts[1..])
  }

  function Prettify(sec: int): string {
    Join(RenderAll(Parts(sec)), ", ")
  }

  // ---------------------------------------------------------------------------
  // The split, stated independently of the loop.

  /** The parts list a count contributes: nothing for zero. */
  function Keep(n: int, u: TimeUnit): seq<Part> {
    if n != 0 then [Part(n, u)] else []
  }

  /** Whole days, then hours below a day, minutes below an hour, seconds below a
      minute: the textbook mixed-radix digits of `sec`. */
  function Days(sec: int): int { sec / 86400 }
  function Hours(sec: int): int { sec % 86400 / 3600 }
  function Minutes(sec: int): int { sec % 3600 / 60 }
  function Seconds(sec: int): int { sec % 60 }

  lemma ModNested(sec: int)
    ensures sec % 86400 % 3600 == sec % 3600
    ensures sec % 3600 % 60 == sec % 60
  {
    var q := sec / 86400;
    assert sec == 86400 * q + sec % 86400;
    assert sec % 86400 == sec - 3600 * (24 * q);
    var p := sec / 3600;
    assert sec == 3600 * p + sec % 3600;
    assert sec % 3600 == sec - 60 * (60 * p);
  }

  /** The loop emits exactly the nonzero mixed-radix digits, in unit order. */
  lemma PartsAreDigits(sec: int)
    ensures Parts(sec) == Keep(Days(sec), Day) + Keep(Hours(sec), Hour)
                        + Keep(Minutes(sec), Minute) + Keep(Seconds(sec), Second)
  {
    ModNested(sec);
    var r1 := sec % 86400;
    var r2 := r1 % 3600;
    var r3 := r2 % 60;
    assert Radix[1..] == [Hour, Minute, Second];
    assert Radix[1..][1..] == [Minute, Second];
    assert Radix[1..][1..][1..] == [Second];
    assert Radix[1..][1..][1..][1..] == [];
    assert Decompose(r3 % 1, []) == [];
    assert Decompose(r3, [Second]) == Keep(r3, Second);
    assert Decompose(r2, [Minute, Second]) == Keep(r2 / 60, Minute) + Keep(r3, Second);
    assert Decompose(r1, [Hour, Minute, Second])
        == Keep(r1 / 3600, Hour) + Keep(r2 / 60, Minute) + Keep(r3, Second);
  }

  lemma DigitsSumBack(sec: int)
    ensures Days(sec) * 86400 + Hours(sec) * 3600 + Minutes(sec) * 60 + Seconds(sec) == sec
    ensures 0 <= Hours(sec) < 24 && 0 <= Minutes(sec) < 60 && 0 <= Seconds(sec) < 60
    ensures sec >= 0 ==> Days(sec) >= 0
  {
    ModNested(sec);
    var r1 := sec % 86400;
    assert sec == Days(sec) * 86400 + r1;
    assert r1 == Hours(sec) * 3600 + r1 % 3600;
    assert r1 % 3600 == Minutes(sec) * 60 + Seconds(sec);
  }

  /** Total seconds a parts list stands for. */
  function Weight(parts: seq<Part>): int
    decreases |parts|
  {
    if |parts| == 0 then 0 else parts[0].count * Size(parts[0].unit) + Weight(parts[1..])
  }

  lemma {:induction false} WeightAppend(a: seq<Part>, b: seq<Part>)
    ensures Weight(a + b) == Weight(a) + Weight(b)
    decreases |a|
  {
    if |a| > 0 {
      assert (a + b)[0] == a[0];
      assert (a + b)[1..] == a[1..] + b;
      WeightAppend(a[1..], b);
    } else {
      assert a + b == b;
    }
  }

  /** The emitted counts, each times its unit's size, add back up to `sec`; this
      holds for negative `sec` as well, where only the day count is negative. */
  lemma PartsSumBack(sec: int)
    ensures Weight(Parts(sec)) == sec
  {
    PartsAreDigits(sec);
    DigitsSumBack(sec);
    var kd, kh, km, ks := Keep(Days(sec), Day), Keep(Hours(sec), Hour),
                          Keep(Minutes(sec), Minute), Keep(Seconds(sec), Second);
    WeightAppend(kd + kh + km, ks);
    WeightAppend(kd + kh, km);
    WeightAppend(kd, kh);
  }

  /** Everything the output promises about its components: no zero count, hours
      below 24, minutes and seconds below 60, units strictly largest first, and for
      a non-negative input every count positive. */
  lemma PartsShape(sec: int)
    ensures forall i :: 0 <= i < |Parts(sec)| ==> Parts(sec)[i].count != 0
    ensures forall i :: 0 <= i < |Parts(sec)| && Parts(sec)[i].unit != Day ==>
              0 < Parts(sec)[i].count < (if Parts(sec)[i].unit == Hour then 24 else 60)
    ensures forall i, j :: 0 <= i < j < |Parts(sec)| ==>
              Size(Parts(sec)[i].unit) > Size(Parts(sec)[j].unit)
    ensures sec >= 0 ==> forall i :: 0 <= i < |Parts(sec)| ==> Parts(sec)[i].count > 0
  {
    PartsAreDigits(sec);
    DigitsSumBack(sec);
  }

  /** The text is empty exactly when there is nothing to say: `sec == 0`. */
  lemma PrettifyEmptyIffZero(sec: int)
    ensures Prettify(sec) == "" <==> sec == 0
  {
    PartsSumBack(sec);
    var parts := Parts(sec);
    if sec == 0 {
      PartsAreDigits(sec);
      assert parts == [];
    } else {
      assert |parts| > 0;
      JoinNonEmpty(RenderAll(parts), ", ");
    }
  }

  lemma {:induction false} JoinNonEmpty(parts: seq<string>, sep: string)
    requires |parts| > 0 && |parts[0]| > 0
    ensures |Join(parts, sep)| > 0
  {
  }

  // ---------------------------------------------------------------------------
  // Worked values, including the odd output for a negative input.

  lemma PrettifyThirtyMinutes()
    ensures Prettify(1800) == "30 minutes"
  {
    PartsAreDigits(1800);
    assert Parts(1800) == [Part(30, Minute)];
    assert NatToString(30) == "30";
  }

  lemma PrettifyTwentyNineMinutes()
    ensures Prettify(1740) == "29 minutes"
  {
    PartsAreDigits(1740);
    assert Parts(1740) == [Part(29, Minute)];
    assert NatToString(29) == "29";
  }

  lemma PrettifyOneDay()
    ensures Prettify(86400) == "1 day"
  {
    PartsAreDigits(86400);
    assert Parts(86400) == [Part(1, Day)];
  }

  /** `Prettify` read through its three stages: split, render, join. */
  lemma PrettifyVia(sec: int, parts: seq<Part>, texts: seq<string>)
    requires Parts(sec) == parts && RenderAll(parts) == texts
    ensures Prettify(sec) == Join(texts, ", ")
  {
  }

  // Proof steps for `PrettifyEachUnitOnce` and `PrettifyNegative`: each example's
  // parts, renderings and join are fixed by a lemma of its own.

  lemma PartsOfHourMinuteSecond()
    ensures Parts(3661) == [Part(1, Hour), Part(1, Minute), Part(1, Second)]
  {
    PartsAreDigits(3661);
  }

  lemma RenderOnes()
    ensures RenderAll([Part(1, Hour), Part(1, Minute), Part(1, Second)])
         == ["1 hour", "1 minute", "1 second"]
  {
    var parts := [Part(1, Hour), Part(1, Minute), Part(1, Second)];
    assert NatToString(1) == "1";
    assert Render(parts[0]) == "1 hour";
    assert Render(parts[1]) == "1 minute";
    assert Render(parts[2]) == "1 second";
  }

  lemma JoinOnes()
    ensures Join(["1 hour", "1 minute", "1 second"], ", ") == "1 hour, 1 minute, 1 second"
  {
  }

  /** Singular unit names for counts of one. */
  lemma PrettifyEachUnitOnce()
    ensures Prettify(3661) == "1 hour, 1 minute, 1 second"
  {
    PartsOfHourMinuteSecond();
    RenderOnes();
    JoinOnes();
    PrettifyVia(3661, [Part(1, Hour), Part(1, Minute), Part(1, Second)],
                ["1 hour", "1 minute", "1 second"]);
  }

  lemma PartsOfMinusFive()
    ensures Parts(-5) == [Part(-1, Day), Part(23, Hour), Part(59, Minute), Part(55, Second)]
  {
    PartsAreDigits(-5);
  }

  /** The four renderings of that example, each proved on its own so that no single
      proof obligation has to spell out all four. */
  lemma RenderMinusOneDay() ensures Render(Part(-1, Day)) == "-1 day" {
    assert NatToString(1) == "1";
  }

  lemma RenderHours() ensures Render(Part(23, Hour)) == "23 hours" {
    assert NatToString(23) == "23";
  }

  lemma RenderMinutes() ensures Render(Part(59, Minute)) == "59 minutes" {
    assert NatToString(59) == "59";
  }

  lemma RenderSeconds() ensures Render(Part(55, Second)) == "55 seconds" {
    assert NatToString(55) == "55";
  }

  lemma RenderMinusFive()
    ensures RenderAll([Part(-1, Day), Part(23, Hour), Part(59, Minute), Part(55, Second)])
         == ["-1 day", "23 hours", "59 minutes", "55 seconds"]
  {
    RenderMinusOneDay();
    RenderHours();
    RenderMinutes();
    RenderSeconds();
  }

  lemma JoinMinusFive()
    ensures Join(["-1 day", "23 hours", "59 minutes", "55 seconds"], ", ")
         == "-1 day, 23 hours, 59 minutes, 55 seconds"
  {
  }

  /** Python's flooring `divmod` turns five seconds overdue into minus one day plus
      the complement, and `n > 1` keeps "-1 day" singular. */
  lemma PrettifyNegative()
    ensures Prettify(-5) == "-1 day, 23 hours, 59 minutes, 55 seconds"
  {
    PartsOfMinusFive();
    RenderMinusFive();
    JoinMinusFive();
    PrettifyVia(-5, [Part(-1, Day), Part(23, Hour), Part(59, Minute), Part(55, Second)],
                ["-1 day", "23 hours", "59 minutes", "55 seconds"]);
  }
}

=== FILE: lifecycle.dfy ===
/** What the daemon loop guarantees: at most one live session ever, the end of a
    session always leaves the policy at `suspend`, and each command's replies and
    effects, stated over `Daemon.Step`. */
module Lifecycle {
  import opened Wrappers
  import opened Text
  import Duration
  import Humanize
  import Policy
  import opened Daemon

  // ---------------------------------------------------------------------------
  // Pruning.

  /** Pruning distributes over concatenation: together with its effect on a single
      entry this pins it down as "the live entries, in order". */
  lemma {:induction false} PruneAppend(a: seq<Session>, b: seq<Session>)
    ensures Prune(a + b) == Prune(a) + Prune(b)
    decreases |a|
  {
    if |a| == 0 {
      assert a + b == b;
    } else {
      assert (a + b)[0] == a[0];
      assert (a + b)[1..] == a[1..] + b;
      PruneAppend(a[1..], b);
    }
  }

  lemma PruneSingle(x: Session)
    ensures Prune([x]) == (if x.alive then [x] else [])
  {
    assert [x][1..] == [];
  }

  /** Pruning twice is pruning once. */
  lemma PruneIdempotent(registry: seq<Session>)
    ensures Prune(Prune(registry)) == Prune(registry)
  {
  }

  // ---------------------------------------------------------------------------
  // The registry invariant.

  /** A cancelled worker has been joined, and a worker only ends after becoming
      ready; no entry was accepted with more than a day. */
  predicate WellFormed(x: Session) {
    && (x.cancelled ==> !x.alive)
    && (!x.alive ==> x.ready)
    && x.duration <= MaxDuration
  }

  /** The registry never holds more than one entry (so never more than one live
      session), and once the loop has stopped no worker is alive. */
  predicate Inv(s: Server) {
    && |s.registry| <= 1
    && (forall i :: 0 <= i < |s.registry| ==> WellFormed(s.registry[i]))
    && (!s.Running() ==> LiveCount(s.registry) == 0)
  }

  lemma InitialInv(store: Policy.Store)
    ensures Inv(Initial(store))
  {
  }

  lemma AtMostOneLive(s: Server)
    requires Inv(s)
    ensures LiveCount(s.registry) <= 1
  {
  }

  lemma PruneWellFormed(registry: seq<Session>)
    requires forall i :: 0 <= i < |registry| ==> WellFormed(registry[i])
    ensures forall i :: 0 <= i < |Prune(registry)| ==> WellFormed(Prune(registry)[i])
  {
    var live := Prune(registry);
    forall i | 0 <= i < |live| ensures WellFormed(live[i]) {
      assert live[i] in multiset(registry);
    }
  }

  lemma FinishAllDead(registry: seq<Session>)
    ensures LiveCount(FinishAll(registry)) == 0
  {
  }

  lemma ShutdownInv(s: Server)
    requires Inv(s)
    ensures Inv(Shutdown(s))
    ensures LiveCount(Shutdown(s).registry) == 0
  {
    PruneWellFormed(s.registry);
    FinishAllDead(Prune(s.registry));
  }

  lemma CaffeineInv(s: Server, msg: string, now: int)
    requires Inv(s) && s.Running()
    ensures Inv(Caffeine(s, msg, now).0)
  {
    PruneWellFormed(s.registry);
  }

  lemma SpillInv(s: Server)
    requires Inv(s) && s.Running()
    ensures Inv(Spill(s).0)
  {
    PruneWellFormed(s.registry);
  }

  lemma CoffeeInv(s: Server, now: int)
    requires Inv(s) && s.Running()
    ensures Inv(Coffee(s, now).0)
  {
    PruneWellFormed(s.registry);
  }

  lemma DispatchInv(s: Server, msg: string, now: int)
    requires Inv(s) && s.phase == Connected
    ensures Inv(Dispatch(s, msg, now).0)
  {
    if msg == "close server" {
      ShutdownInv(s);
    } else if StartsWith(msg, CaffeinePrefix) {
      CaffeineInv(s, msg, now);
    } else if msg == "coffee" {
      CoffeeInv(s, now);
    } else if msg == "spill" {
      SpillInv(s);
    }
  }

  /** A server whose registry is a single well-formed entry, alive only while the
      loop runs, meets the invariant. */
  lemma SingleInv(t: Server, x: Session)
    requires t.registry == [x] && WellFormed(x) && (!t.Running() ==> !x.alive)
    ensures Inv(t)
  {
    PruneSingle(x);
  }

  lemma ReadyInv(s: Server, i: nat, now: int)
    requires Inv(s)
    ensures Inv(Step(s, WorkerReady(i), now).0)
  {
    if CanBecomeReady(s, i) {
      var x := s.registry[0];
      PruneSingle(x);
      SingleInv(Step(s, WorkerReady(i), now).0, x.(ready := true));
    }
  }

  /** A worker becoming ready ends no session and starts none. */
  lemma ReadyKeepsLive(s: Server, i: nat, now: int)
    requires Inv(s)
    ensures LiveCount(Step(s, WorkerReady(i), now).0.registry) == LiveCount(s.registry)
  {
    if CanBecomeReady(s, i) {
      var x := s.registry[0];
      assert s.registry == [x];
      assert Step(s, WorkerReady(i), now).0.registry == [x.(ready := true)];
      PruneSingle(x);
      PruneSingle(x.(ready := true));
    }
  }

  lemma ExpireInv(s: Server, i: nat, now: int)
    requires Inv(s)
    ensures Inv(Step(s, WorkerExpired(i), now).0)
  {
    if CanExpire(s, i, now) {
      SingleInv(Step(s, WorkerExpired(i), now).0, s.registry[0].(alive := false));
    }
  }

  /** Every transition keeps the invariant. */
  lemma StepPreservesInv(s: Server, e: Event, now: int)
    requires Inv(s)
    ensures Inv(Step(s, e, now).0)
  {
    match e
    case Interrupt => if s.Running() { ShutdownInv(s); }
    case Receive(msg) => if s.phase == Connected { DispatchInv(s, msg, now); }
    case EndOfStream => if s.phase == Connected { DispatchInv(s, "close connection", now); }
    case WorkerReady(i) => ReadyInv(s, i, now);
    case WorkerExpired(i) => ExpireInv(s, i, now);
    case _ =>
  }

  // ---------------------------------------------------------------------------
  // The lifecycle rule: a session that ends leaves `suspend` behind.

  /** Whenever a transition ends a live session — expiry, `spill`, `close server`
      or an interrupt — the policy afterwards reads `suspend`, whatever it was
      before (a `toggle` during the session included). */
  lemma SessionEndWritesSuspend(s: Server, e: Event, now: int)
    requires Inv(s)
    requires LiveCount(Step(s, e, now).0.registry) < LiveCount(s.registry)
    ensures Policy.Mode(Step(s, e, now).0.store) == Policy.Suspend
  {
    match e
    case Receive(msg) => SessionEndOnReceive(s, msg, now);
    case EndOfStream => if s.phase == Connected { EndOfStreamCloses(s, now); }
    case Interrupt => SessionEndOnInterrupt(s, now);
    case WorkerReady(i) => ReadyKeepsLive(s, i, now);
    case WorkerExpired(i) =>
    case Accept =>
    case AuthFailure =>
  }

  /** `SessionEndWritesSuspend` for an interrupt. */
  lemma SessionEndOnInterrupt(s: Server, now: int)
    requires Inv(s)
    requires LiveCount(Step(s, Interrupt, now).0.registry) < LiveCount(s.registry)
    ensures Policy.Mode(Step(s, Interrupt, now).0.store) == Policy.Suspend
  {
    PruneIdempotent(s.registry);
  }

  /** `SessionEndWritesSuspend` for a received command. */
  lemma SessionEndOnReceive(s: Server, msg: string, now: int)
    requires Inv(s)
    requires LiveCount(Step(s, Receive(msg), now).0.registry) < LiveCount(s.registry)
    ensures Policy.Mode(Step(s, Receive(msg), now).0.store) == Policy.Suspend
  {
    PruneIdempotent(s.registry);
    if s.phase == Connected && StartsWith(msg, CaffeinePrefix) && |Prune(s.registry)| != 1 {
      match Duration.ConvertToSeconds(msg)
      case None =>
      case Some(d) =>
        PruneAppend(Prune(s.registry), [Session(true, false, false, now, d)]);
        PruneSingle(Session(true, false, false, now, d));
    }
  }

  /** Expiry of a ready worker's wait ends its session and writes `suspend`. */
  lemma ExpiryEndsSession(s: Server, i: nat, now: int)
    requires Inv(s) && CanExpire(s, i, now)
    ensures var s' := Step(s, WorkerExpired(i), now).0;
            && Policy.Mode(s'.store) == Policy.Suspend
            && LiveCount(s'.registry) == 0 == LiveCount(s.registry) - 1
            && s'.phase == s.phase
  {
    var s' := Step(s, WorkerExpired(i), now).0;
    PruneSingle(s.registry[0]);
    PruneSingle(s'.registry[0]);
  }

  /** A worker is not woken before its `duration` has passed: an expiry event that
      comes early changes nothing. */
  lemma EarlyExpiryIgnored(s: Server, i: nat, now: int)
    requires i < |s.registry| && now - s.registry[i].start < s.registry[i].duration
    ensures Step(s, WorkerExpired(i), now) == (s, None)
  {
  }

  /** A worker that becomes ready has forced `ignore`, so `current` now says so. */
  lemma ReadyForcesIgnore(s: Server, i: nat, now: int, later: int)
    requires Inv(s) && CanBecomeReady(s, i) && s.phase == Connected
    ensures var s' := Step(s, WorkerReady(i), now).0;
            && Policy.Mode(s'.store) == Policy.Ignore
            && LiveCount(s'.registry) == LiveCount(s.registry) == 1
            && Step(s', Receive("current"), later).1 == Some(ModeIs(Policy.Ignore))
  {
    var s' := Step(s, WorkerReady(i), now).0;
    assert s' == s.(store := Some(Policy.Ignore), registry := [s.registry[0].(ready := true)]);
    PruneSingle(s.registry[0]);
    PruneSingle(s'.registry[0]);
    CurrentCommand(s', later);
  }

  /** A `toggle` in the middle of a session is overwritten when the session ends. */
  lemma ToggleDuringSessionIsOverwritten(s: Server, now: int, later: int)
    requires Inv(s) && s.phase == Connected
    requires |s.registry| == 1 && s.registry[0].alive && s.registry[0].ready
    requires later - s.registry[0].start >= s.registry[0].duration
    ensures var toggled := Step(s, Receive("toggle"), now).0;
            && Policy.Mode(Step(toggled, WorkerExpired(0), later).0.store) == Policy.Suspend
  {
  }

  // ---------------------------------------------------------------------------
  // Commands, one at a time, on a served connection.

  /** No exact-match command starts with `caffeine `, so the prefix test decides. */
  lemma CaffeineDispatch(s: Server, msg: string, now: int)
    requires StartsWith(msg, CaffeinePrefix)
    ensures !IsKnownCommand(msg)
    ensures Dispatch(s, msg, now) == Caffeine(s, msg, now)
  {
    assert msg[1] == CaffeinePrefix[1] == 'a';
  }

  /** `caffeine <expr>` while a session is live replies `Already running` and
      changes neither the live sessions nor the policy. */
  lemma CaffeineWhileLive(s: Server, msg: string, now: int)
    requires Inv(s) && s.phase == Connected
    requires StartsWith(msg, CaffeinePrefix) && LiveCount(s.registry) > 0
    ensures var (s', reply) := Step(s, Receive(msg), now);
            && reply == Some(AlreadyRunning)
            && s'.store == s.store && s'.phase == s.phase
            && Prune(s'.registry) == Prune(s.registry)
  {
    CaffeineDispatch(s, msg, now);
  }

  /** A duration over one day is refused and no session is created. */
  lemma CaffeineTooLong(s: Server, msg: string, now: int, d: nat)
    requires Inv(s) && s.phase == Connected
    requires StartsWith(msg, CaffeinePrefix) && LiveCount(s.registry) == 0
    requires Duration.ConvertToSeconds(msg) == Some(d) && d > MaxDuration
    ensures var (s', reply) := Step(s, Receive(msg), now);
            && reply == Some(TooLong)
            && s'.store == s.store && s'.phase == s.phase
            && LiveCount(s'.registry) == 0
  {
    CaffeineDispatch(s, msg, now);
  }

  /** A duration of at most one day starts exactly one session, created now with the
      parsed duration, and replies with the humanised duration; the policy changes
      only once the worker is ready. */
  lemma CaffeineAccepted(s: Server, msg: string, now: int, d: nat)
    requires Inv(s) && s.phase == Connected
    requires StartsWith(msg, CaffeinePrefix) && LiveCount(s.registry) == 0
    requires Duration.ConvertToSeconds(msg) == Some(d) && d <= MaxDuration
    ensures var (s', reply) := Step(s, Receive(msg), now);
            && reply == Some(Drinking(d))
            && s'.registry == [Session(true, false, false, now, d)]
            && s'.store == s.store && s'.phase == Connected
  {
    CaffeineDispatch(s, msg, now);
  }

  /** A duration `timedelta` cannot hold raises out of the loop and ends the server
      without a reply. */
  lemma CaffeineOverflow(s: Server, msg: string, now: int)
    requires Inv(s) && s.phase == Connected
    requires StartsWith(msg, CaffeinePrefix) && LiveCount(s.registry) == 0
    requires Duration.ConvertToSeconds(msg) == None
    ensures var (s', reply) := Step(s, Receive(msg), now);
            && reply == None && s'.phase == Crashed && s'.store == s.store
  {
    CaffeineDispatch(s, msg, now);
  }

  /** A day exactly is accepted. */
  lemma CaffeineOneDay(s: Server, now: int)
    requires Inv(s) && s.phase == Connected && LiveCount(s.registry) == 0
    ensures Step(s, Receive("caffeine 86400s"), now).1 == Some(Drinking(86400))
  {
    Duration.ConvertExactlyOneDay();
    assert StartsWith("caffeine 86400s", CaffeinePrefix);
    CaffeineAccepted(s, "caffeine 86400s", now, 86400);
  }

  /** A second more than a day is refused and starts nothing. */
  lemma CaffeineOverOneDay(s: Server, now: int)
    requires Inv(s) && s.phase == Connected && LiveCount(s.registry) == 0
    ensures Step(s, Receive("caffeine 1d 1s"), now).1 == Some(TooLong)
    ensures LiveCount(Step(s, Receive("caffeine 1d 1s"), now).0.registry) == 0
  {
    Duration.ConvertOneDayOneSecond();
    assert StartsWith("caffeine 1d 1s", CaffeinePrefix);
    CaffeineTooLong(s, "caffeine 1d 1s", now, 86401);
  }

  /** A week is seven days, so `caffeine 1w` gets the one-day refusal. */
  lemma CaffeineOneWeek(s: Server, now: int)
    requires Inv(s) && s.phase == Connected && LiveCount(s.registry) == 0
    ensures Step(s, Receive("caffeine 1w"), now).1 == Some(TooLong)
    ensures LiveCount(Step(s, Receive("caffeine 1w"), now).0.registry) == 0
  {
    Duration.ConvertOneWeek();
    assert StartsWith("caffeine 1w", CaffeinePrefix);
    CaffeineTooLong(s, "caffeine 1w", now, 604800);
  }

  /** `coffee` with no live session is sober and changes nothing observable. */
  lemma CoffeeSober(s: Server, now: int)
    requires Inv(s) && s.phase == Connected && LiveCount(s.registry) == 0
    ensures var (s', reply) := Step(s, Receive("coffee"), now);
            && reply == Some(Sober) && s'.store == s.store && LiveCount(s'.registry) == 0
            && s'.phase == s.phase
  {
  }

  /** `coffee` with a live session reports its duration minus the time elapsed. */
  lemma CoffeeRemaining(s: Server, now: int)
    requires Inv(s) && s.phase == Connected && LiveCount(s.registry) == 1
    ensures var x := s.registry[0];
            var (s', reply) := Step(s, Receive("coffee"), now);
            && x.alive
            && reply == Some(Remaining(x.duration - (now - x.start)))
            && s' == s
  {
    var x := s.registry[0];
    PruneSingle(x);
    assert s.registry == [x];
    assert Prune(s.registry) == s.registry;
    assert Step(s, Receive("coffee"), now) == Coffee(s, now);
    assert Coffee(s, now) == (s.(registry := [x]), Some(Remaining(x.duration - (now - x.start))));
  }

  /** A `caffeine ` message without any digit parses as zero seconds: a session of
      no length starts, and the reply names no duration at all. */
  lemma CaffeineWithoutDigits(s: Server, msg: string, now: int)
    requires Inv(s) && s.phase == Connected && LiveCount(s.registry) == 0
    requires StartsWith(msg, CaffeinePrefix)
    requires forall i :: 0 <= i < |msg| ==> !IsDigit(msg[i])
    ensures var (s', reply) := Step(s, Receive(msg), now);
            && reply == Some(Drinking(0))
            && s'.registry == [Session(true, false, false, now, 0)]
    ensures Drinking(0).Text() == "Drinking Coffee for "
  {
    Duration.ConvertNoDigits(msg);
    CaffeineAccepted(s, msg, now, 0);
    Humanize.PrettifyEmptyIffZero(0);
  }

  /** `coffee` in the last second of a session, before its worker has woken, has
      nothing left to report: the reply is the bare word "remaining". */
  lemma CoffeeAtDeadline(s: Server, now: int)
    requires Inv(s) && s.phase == Connected && LiveCount(s.registry) == 1
    requires now - s.registry[0].start == s.registry[0].duration
    ensures Step(s, Receive("coffee"), now).1 == Some(Remaining(0))
    ensures Remaining(0).Text() == " remaining"
  {
    CoffeeRemaining(s, now);
    Humanize.PrettifyEmptyIffZero(0);
  }

  /** `spill` with no live session says so and changes nothing observable. */
  lemma SpillNothing(s: Server, now: int)
    requires Inv(s) && s.phase == Connected && LiveCount(s.registry) == 0
    ensures var (s', reply) := Step(s, Receive("spill"), now);
            && reply == Some(NothingToSpill) && s'.store == s.store
            && LiveCount(s'.registry) == 0 && s'.phase == s.phase
  {
  }

  /** `spill` with a live session cancels it and waits for its worker: afterwards no
      session is live and the policy reads `suspend`. */
  lemma SpillLive(s: Server, now: int)
    requires Inv(s) && s.phase == Connected && LiveCount(s.registry) == 1
    ensures var (s', reply) := Step(s, Receive("spill"), now);
            && reply == Some(Spilled)
            && Policy.Mode(s'.store) == Policy.Suspend
            && LiveCount(s'.registry) == 0
            && s'.registry[0].cancelled
            && s'.phase == Connected
  {
    var s' := Step(s, Receive("spill"), now).0;
    PruneSingle(s.registry[0]);
    PruneSingle(s'.registry[0]);
  }

  /** `toggle` writes and replies the toggled mode and leaves the sessions alone. */
  lemma ToggleCommand(s: Server, now: int)
    requires s.phase == Connected
    ensures var (s', reply) := Step(s, Receive("toggle"), now);
            && reply == Some(ModeIs(Policy.Toggled(s.store)))
            && Policy.Mode(s'.store) == Policy.Toggled(s.store)
            && s'.registry == s.registry && s'.phase == Connected
  {
  }

  /** `current` replies the mode read and changes nothing. */
  lemma CurrentCommand(s: Server, now: int)
    requires s.phase == Connected
    ensures Step(s, Receive("current"), now) == (s, Some(ModeIs(Policy.Mode(s.store))))
  {
  }

  /** With no session, `toggle` twice restores a `suspend` or `ignore` policy. */
  lemma ToggleTwiceRestores(s: Server, now: int, later: int)
    requires s.phase == Connected
    requires Policy.Mode(s.store) == Policy.Suspend || Policy.Mode(s.store) == Policy.Ignore
    ensures var once := Step(s, Receive("toggle"), now).0;
            Policy.Mode(Step(once, Receive("toggle"), later).0.store) == Policy.Mode(s.store)
  {
    Policy.ToggleTwice(s.store);
  }

  /** The commands the loop recognises by exact match. */
  predicate IsKnownCommand(msg: string) {
    msg in {"close connection", "close server", "toggle", "current", "coffee", "spill"}
  }

  /** Any other message, a bare `caffeine` among them, is echoed back as not
      recognised and changes nothing. */
  lemma UnknownCommand(s: Server, msg: string, now: int)
    requires s.phase == Connected
    requires !IsKnownCommand(msg) && !StartsWith(msg, CaffeinePrefix)
    ensures Step(s, Receive(msg), now) == (s, Some(Unrecognized(msg)))
  {
  }

  lemma BareCaffeineUnknown(s: Server, now: int)
    requires s.phase == Connected
    ensures Step(s, Receive("caffeine"), now) == (s, Some(Unrecognized("caffeine")))
  {
    assert !StartsWith("caffeine", CaffeinePrefix);
    assert !IsKnownCommand("caffeine");
    UnknownCommand(s, "caffeine", now);
  }

  /** End of stream is handled as `close connection`: back to listening, no reply,
      sessions and policy untouched. */
  lemma EndOfStreamCloses(s: Server, now: int)
    requires s.phase == Connected
    ensures Step(s, EndOfStream, now) == Step(s, Receive("close connection"), now)
    ensures Step(s, EndOfStream, now) == (s.(phase := Listening), None)
  {
  }

  /** A listening server accepts a client and serves it; nothing else changes. */
  lemma AcceptConnects(s: Server, now: int)
    requires s.phase == Listening
    ensures Step(s, Accept, now) == (s.(phase := Connected), None)
  {
  }

  /** The first client of a fresh server is served. */
  lemma FirstClientServed(store: Policy.Store, now: int)
    ensures Run(Initial(store), [(Accept, now)]).0 == Initial(store).(phase := Connected)
    ensures Run(Initial(store), [(Accept, now)]).1 == []
  {
    AcceptConnects(Initial(store), now);
    RunSnoc(Initial(store), [], (Accept, now));
  }

  /** A client that fails authentication is dropped and the server keeps listening,
      with nothing changed and no reply. */
  lemma AuthFailureIgnored(s: Server, now: int)
    ensures Step(s, AuthFailure, now) == (s, None)
  {
  }

  /** `close server` stops the loop and ends every live session; if one was live the
      policy reads `suspend` afterwards, and otherwise it is left as it was. */
  lemma CloseServerEndsSessions(s: Server, now: int)
    requires Inv(s) && s.phase == Connected
    ensures var (s', reply) := Step(s, Receive("close server"), now);
            && reply == None && s'.phase == Stopped && !s'.Running()
            && LiveCount(s'.registry) == 0
            && Policy.Mode(s'.store)
               == (if LiveCount(s.registry) > 0 then Policy.Suspend else Policy.Mode(s.store))
  {
    ShutdownInv(s);
  }

  /** An interrupt while listening or serving does the same as `close server`. */
  lemma InterruptEndsSessions(s: Server, now: int)
    requires Inv(s) && s.Running()
    ensures Step(s, Interrupt, now).0 == Shutdown(s)
    ensures LiveCount(Step(s, Interrupt, now).0.registry) == 0
    ensures LiveCount(s.registry) > 0 ==> Policy.Mode(Step(s, Interrupt, now).0.store) == Policy.Suspend
  {
    ShutdownInv(s);
  }

  /** Once stopped or crashed the server does nothing more. */
  lemma StoppedIsFinal(s: Server, e: Event, now: int)
    requires Inv(s) && !s.Running()
    ensures Step(s, e, now) == (s, None)
  {
  }

  // ---------------------------------------------------------------------------
  // The loop as a whole.

  /** One event handed to the accept loop: ignored once the server has stopped,
      otherwise stepped, with its reply (if any) appended to those so far. */
  function Feed(sofar: (Server, seq<Reply>), event: (Event, int)): (Server, seq<Reply>) {
    var (prior, replies) := sofar;
    if !prior.Running() then sofar
    else
      var (next, reply) := Step(prior, event.0, event.1);
      (next, replies + if reply.Some? then [reply.value] else [])
  }

  /** The accept loop as a fold: every event, with the time it happens, is fed in
      order starting from `s` with no replies. */
  function Run(s: Server, events: seq<(Event, int)>): (r: (Server, seq<Reply>))
    ensures |r.1| <= |events|
    decreases |events|
  {
    if |events| == 0 then (s, [])
    else Feed(Run(s, events[..|events| - 1]), events[|events| - 1])
  }

  /** Running one more event is feeding it to the run so far. */
  lemma RunSnoc(s: Server, events: seq<(Event, int)>, last: (Event, int))
    ensures Run(s, events + [last]) == Feed(Run(s, events), last)
  {
    assert (events + [last])[..|events|] == events;
  }

  /** The invariant holds after any run: the registry never holds two live
      sessions, and a stopped server leaves none behind. */
  lemma {:induction false} RunInv(s: Server, events: seq<(Event, int)>)
    requires Inv(s)
    ensures Inv(Run(s, events).0)
    decreases |events|
  {
    if |events| > 0 {
      var prefix := events[..|events| - 1];
      RunInv(s, prefix);
      var prior := Run(s, prefix).0;
      if prior.Running() {
        StepPreservesInv(prior, events[|events| - 1].0, events[|events| - 1].1);
      }
    }
  }

  /** Once a run has stopped the server, later events change nothing and add no
      reply. */
  lemma {:induction false} RunStopped(s: Server, events: seq<(Event, int)>, later: seq<(Event, int)>)
    requires !Run(s, events).0.Running()
    ensures Run(s, events + later) == Run(s, events)
    decreases |later|
  {
    if |later| == 0 {
      assert events + later == events;
    } else {
      var all := events + later;
      assert all[..|all| - 1] == events + later[..|later| - 1];
      RunStopped(s, events, later[..|later| - 1]);
    }
  }

  /** The accept loop fed a finite sequence of events: it computes `Run` over the
      events it consumed, and it stops early only because the server stopped. */
  method Serve(store: Policy.Store, events: seq<(Event, int)>)
    returns (final: Server, replies: seq<Reply>, consumed: nat)
    ensures consumed <= |events|
    ensures (final, replies) == Run(Initial(store), events[..consumed])
    ensures consumed == |events| || !final.Running()
    ensures LiveCount(final.registry) <= 1
    ensures !final.Running() ==> LiveCount(final.registry) == 0
    ensures Inv(final)
  {
    final := Initial(store);
    replies := [];
    consumed := 0;
    while consumed < |events| && final.Running()
      invariant consumed <= |events|
      invariant (final, replies) == Run(Initial(store), events[..consumed])
      invariant Inv(final)
    {
      var (e, now) := events[consumed];
      StepPreservesInv(final, e, now);
      RunSnoc(Initial(store), events[..consumed], events[consumed]);
      assert events[..consumed + 1] == events[..consumed] + [events[consumed]];
      var (next, reply) := Step(final, e, now);
      if reply.Some? {
        replies := replies + [reply.value];
      } else {
        assert replies + [] == replies;
      }
      final := next;
      consumed := consumed + 1;
    }
  }

  /** The session walk-through, one event at a time. The `Walk` lemmas are proof
      steps of `Walkthrough` only and state nothing beyond it. */
  lemma WalkCaffeine(s0: Server)
    requires Inv(s0) && s0.phase == Connected && LiveCount(s0.registry) == 0
    ensures Step(s0, Receive("caffeine 30m"), 100)
         == (s0.(registry := [Session(true, false, false, 100, 1800)]), Some(Drinking(1800)))
  {
    Duration.ConvertThirtyMinutes();
    assert StartsWith("caffeine 30m", CaffeinePrefix);
    CaffeineAccepted(s0, "caffeine 30m", 100, 1800);
  }

  lemma WalkReady(s1: Server)
    requires s1.phase == Connected && s1.registry == [Session(true, false, false, 100, 1800)]
    ensures Step(s1, WorkerReady(0), 100).0
         == s1.(store := Some(Policy.Ignore), registry := [Session(true, false, true, 100, 1800)])
    ensures Step(Step(s1, WorkerReady(0), 100).0, Receive("current"), 101).1 == Some(ModeIs(Policy.Ignore))
  {
  }

  lemma WalkRefused(s2: Server)
    requires s2.phase == Connected && s2.registry == [Session(true, false, true, 100, 1800)]
    ensures Step(s2, Receive("caffeine 10s"), 101) == (s2, Some(AlreadyRunning))
  {
    assert StartsWith("caffeine 10s", CaffeinePrefix);
    CaffeineDispatch(s2, "caffeine 10s", 101);
    PruneSingle(s2.registry[0]);
  }

  lemma WalkCoffee(s2: Server)
    requires s2.phase == Connected && s2.registry == [Session(true, false, true, 100, 1800)]
    ensures Step(s2, Receive("coffee"), 160).1 == Some(Remaining(1740))
  {
    PruneSingle(s2.registry[0]);
    assert Step(s2, Receive("coffee"), 160) == Coffee(s2, 160);
  }

  lemma WalkSpill(s2: Server)
    requires s2.phase == Connected && s2.registry == [Session(true, false, true, 100, 1800)]
    ensures Step(s2, Receive("spill"), 170)
         == (s2.(store := Some(Policy.Suspend), registry := [Session(false, true, true, 100, 1800)]),
             Some(Spilled))
  {
    var x := s2.registry[0];
    PruneSingle(x);
    assert Step(s2, Receive("spill"), 170) == Spill(s2);
    assert Finish(x) == Session(false, true, true, 100, 1800);
    assert Prune(s2.registry)[0 := Finish(x)] == [Finish(x)];
  }

  lemma WalkAfterSpill(s4: Server)
    requires s4.phase == Connected && s4.store == Some(Policy.Suspend)
    requires s4.registry == [Session(false, true, true, 100, 1800)]
    ensures Step(s4, Receive("current"), 171).1 == Some(ModeIs(Policy.Suspend))
    ensures Step(s4, Receive("spill"), 172).1 == Some(NothingToSpill)
    ensures Step(s4, Receive("foo"), 173).1 == Some(Unrecognized("foo"))
  {
    PruneSingle(s4.registry[0]);
    assert !IsKnownCommand("foo") && !StartsWith("foo", CaffeinePrefix);
    UnknownCommand(s4, "foo", 173);
  }

  /** Start half an hour (the reply reads "Drinking Coffee for 30 minutes"), see
      `ignore` once the worker is ready, be refused a second session, read the time
      left a minute later ("29 minutes remaining"), spill, see `suspend`, spill
      again, and send an unknown command. */
  lemma Walkthrough(s0: Server)
    requires Inv(s0) && s0.phase == Connected && LiveCount(s0.registry) == 0
    ensures var (s1, r1) := Step(s0, Receive("caffeine 30m"), 100);
            var s2 := Step(s1, WorkerReady(0), 100).0;
            var (s3, r3) := Step(s2, Receive("caffeine 10s"), 101);
            var (s4, r4) := Step(s3, Receive("spill"), 170);
            && r1 == Some(Drinking(1800))
            && Step(s2, Receive("current"), 101).1 == Some(ModeIs(Policy.Ignore))
            && r3 == Some(AlreadyRunning)
            && Step(s3, Receive("coffee"), 160).1 == Some(Remaining(1740))
            && r4 == Some(Spilled)
            && Step(s4, Receive("current"), 171).1 == Some(ModeIs(Policy.Suspend))
            && Step(s4, Receive("spill"), 172).1 == Some(NothingToSpill)
            && Step(s4, Receive("foo"), 173).1 == Some(Unrecognized("foo"))
  {
    WalkCaffeine(s0);
    var s1 := s0.(registry := [Session(true, false, false, 100, 1800)]);
    WalkReady(s1);
    var s2 := s1.(store := Some(Policy.Ignore), registry := [Session(true, false, true, 100, 1800)]);
    WalkRefused(s2);
    WalkCoffee(s2);
    WalkSpill(s2);
    var s4 := s2.(store := Some(Policy.Suspend), registry := [Session(false, true, true, 100, 1800)]);
    WalkAfterSpill(s4);
  }

  /** The texts of that walk-through. */
  lemma DrinkingThirtyMinutes()
    ensures Drinking(1800).Text() == "Drinking Coffee for 30 minutes"
  {
    assert "Drinking Coffee for " + "30 minutes" == "Drinking Coffee for 30 minutes";
    Humanize.PrettifyThirtyMinutes();
    DrinkingSpelled(1800, "30 minutes");
  }

  lemma TwentyNineMinutesRemaining()
    ensures Remaining(1740).Text() == "29 minutes remaining"
  {
    assert "29 minutes" + " remaining" == "29 minutes remaining";
    Humanize.PrettifyTwentyNineMinutes();
    RemainingSpelled(1740, "29 minutes");
  }

  lemma DrinkingSpelled(d: nat, text: string)
    requires Humanize.Prettify(d) == text
    ensures Drinking(d).Text() == "Drinking Coffee for " + text
  {
  }

  lemma RemainingSpelled(seconds: int, text: string)
    requires Humanize.Prettify(seconds) == text
    ensures Remaining(seconds).Text() == text + " remaining"
  {
  }
}

=== FILE: policy.dfy ===
/** The lid-switch policy rule of server.py: `get_mode` reads `HandleLidSwitch` from
    the `[Login]` section with a default, and `toggle_lid_suspend` flips between
    `ignore` and `suspend`. The configuration file itself is reduced to the one
    value it holds for that key. */
module Policy {
  import opened Wrappers

  /** What `[Login] HandleLidSwitch` holds: `None` when the key is absent. */
  type Store = Option<string>

  const Suspend: string := "suspend"
  const Ignore: string := "ignore"

  /** `get_mode`: a missing or empty value reads as `suspend`; any other value,
      `lock` for one, is reported as it is. */
  function Mode(store: Store): (mode: string)
    ensures mode != ""
    ensures store.Some? && store.value != "" ==> mode == store.value
  {
    if store.None? || store.value == "" then Suspend else store.value
  }

  /** The value `toggle_lid_suspend` writes and replies with. */
  function Toggled(store: Store): (mode: string)
    ensures mode == Ignore || mode == Suspend
    ensures mode == Ignore <==> Mode(store) != Ignore
  {
    if Mode(store) != Ignore then Ignore else Suspend
  }

  /** `set_mode`: the key now holds `mode`, whatever it held before. */
  function Write(store: Store, mode: string): (store': Store)
    ensures Mode(store') == (if mode == "" then Suspend else mode)
  {
    Some(mode)
  }

  /** A missing key and an empty value both read as `suspend`. */
  lemma DefaultIsSuspend()
    ensures Mode(None) == Suspend
    ensures Mode(Some("")) == Suspend
  {
  }

  /** Toggling twice gives back the mode read before exactly when that mode was
      `suspend` or `ignore`; any other value (such as `lock`) is lost and comes back
      as `suspend`. */
  lemma ToggleTwice(store: Store)
    ensures var once := Write(store, Toggled(store));
            var twice := Write(once, Toggled(once));
            && Mode(twice) == (if Mode(store) == Ignore then Ignore else Suspend)
            && (Mode(twice) == Mode(store) <==> Mode(store) == Suspend || Mode(store) == Ignore)
  {
  }

  lemma ToggleLock()
    ensures Toggled(Some("lock")) == Ignore
    ensures Toggled(Write(Some("lock"), Ignore)) == Suspend
  {
  }
}

=== FILE: text.dfy ===
/** Decimal digits, Python's `str(int)` rendering and `", ".join`, over `seq<char>`. */
module Text {

  predicate IsDigit(c: char) {
    '0' <= c <= '9'
  }

  predicate AllDigits(s: string) {
    forall i :: 0 <= i < |s| ==> IsDigit(s[i])
  }

  function DigitValue(c: char): (d: nat)
    requires IsDigit(c)
    ensures d < 10
  {
    c as int - '0' as int
  }

  function DigitChar(d: nat): (c: char)
    requires d < 10
    ensures IsDigit(c) && DigitValue(c) == d
  {
    ('0' as int + d) as char
  }

  /** The number a string of decimal digits denotes, most significant digit first. */
  function DigitsValue(s: string): nat
    requires AllDigits(s)
    decreases |s|
  {
    if |s| == 0 then 0 else DigitsValue(s[..|s| - 1]) * 10 + DigitValue(s[|s| - 1])
  }

  /** Python's `str(n)` for a non-negative `n`: shortest decimal, no leading zero. */
  function NatToString(n: nat): (r: string)
    ensures |r| > 0 && AllDigits(r)
    ensures DigitsValue(r) == n
    ensures r[0] == '0' ==> n == 0
    decreases n
  {
    if n < 10 then [DigitChar(n)]
    else
      var prefix := NatToString(n / 10);
      var r := prefix + [DigitChar(n % 10)];
      assert r[..|r| - 1] == prefix;
      r
  }

  /** Python's `str(n)` for any integer: a minus sign in front of a negative number. */
  function IntToString(n: int): (r: string)
    ensures |r| > 0
    ensures n >= 0 <==> r[0] != '-'
    ensures n >= 0 ==> r == NatToString(n)
    ensures n < 0 ==> r[1..] == NatToString(-n)
  {
    if n < 0 then "-" + NatToString(-n) else NatToString(n)
  }

  /** Python's `sep.join(parts)`. */
  function Join(parts: seq<string>, sep: string): (r: string)
    ensures |parts| == 0 ==> r == ""
    ensures |parts| == 1 ==> r == parts[0]
    decreases |parts|
  {
    if |parts| == 0 then ""
    else if |parts| == 1 then parts[0]
    else parts[0] + sep + Join(parts[1..], sep)
  }

  /** Python's `s.startswith(prefix)`. */
  predicate StartsWith(s: string, prefix: string) {
    prefix <= s
  }

  /** Joining two non-empty lists is joining each and putting one separator
      between them; with the one-part case this fixes where every separator goes. */
  lemma {:induction false} JoinAppend(a: seq<string>, b: seq<string>, sep: string)
    requires |a| > 0 && |b| > 0
    ensures Join(a + b, sep) == Join(a, sep) + sep + Join(b, sep)
    decreases |a|
  {
    if |a| == 1 {
      assert (a + b)[0] == a[0];
      assert (a + b)[1..] == b;
    } else {
      assert (a + b)[0] == a[0];
      assert (a + b)[1..] == a[1..] + b;
      JoinAppend(a[1..], b, sep);
    }
  }

  /** The value of the digits after the decimal point, `0.d1d2...`: each digit
      counts a tenth of the one before it. */
  function FractionValue(frac: string): (v: real)
    requires AllDigits(frac)
    ensures 0.0 <= v <= 1.0
    ensures frac == "" ==> v == 0.0
    decreases |frac|
  {
    if |frac| == 0 then 0.0
    else (DigitValue(frac[0]) as real + FractionValue(frac[1..])) / 10.0
  }

  /** `10^n`, the scale of a fraction written with `n` digits. */
  function Pow10(n: nat): (p: nat)
    ensures p > 0
  {
    if n == 0 then 1 else 10 * Pow10(n - 1)
  }

  /** Read from the front, the first of `n` digits weighs `10^(n-1)`. */
  lemma {:induction false} DigitsValueHead(f: string)
    requires |f| > 0 && AllDigits(f)
    ensures DigitsValue(f) == DigitValue(f[0]) * Pow10(|f| - 1) + DigitsValue(f[1..])
    decreases |f|
  {
    var n := |f|;
    if n == 1 {
      assert f[..0] == "";
      assert f[1..] == "";
    } else {
      var p := f[..n - 1];
      DigitsValueHead(p);
      assert p[1..] == f[1..][..n - 2];
      ShiftHead(DigitsValue(f), DigitsValue(p), DigitValue(f[n - 1]), DigitValue(f[0]),
                Pow10(n - 2), DigitsValue(p[1..]), DigitsValue(f[1..]), Pow10(n - 1));
    }
  }

  /** The arithmetic step of `DigitsValueHead`: appending digit `dl` to both `p` and
      its tail keeps the head digit's weight one place higher. */
  lemma ShiftHead(vf: nat, vp: nat, dl: nat, d0: nat, q: nat, vpt: nat, vft: nat, q': nat)
    requires vf == vp * 10 + dl && vp == d0 * q + vpt && vft == vpt * 10 + dl
    requires q' == 10 * q
    ensures vf == d0 * q' + vft
  {
    calc {
      vf;
      (d0 * q + vpt) * 10 + dl;
      d0 * (q * 10) + vpt * 10 + dl;
    }
  }

  /** `x` scaled by `n`: a fraction of `k` digits scaled by `10^k` is an integer. */
  function Scaled(x: real, n: nat): real {
    x * n as real
  }

  /** A fraction of `n` digits scaled by `10^n` is the integer those digits spell, so
      `.25` is exactly 25/100: no digit is dropped or rounded. */
  lemma {:induction false} FractionScaled(f: string)
    requires AllDigits(f)
    ensures Scaled(FractionValue(f), Pow10(|f|)) == DigitsValue(f) as real
    decreases |f|
  {
    if |f| > 0 {
      var t := f[1..];
      FractionScaled(t);
      DigitsValueHead(f);
      ShiftDigit(FractionValue(f), FractionValue(t), DigitValue(f[0]), Pow10(|t|),
                 DigitsValue(t), Pow10(|f|));
    }
  }

  /** The arithmetic step of `FractionScaled`: prefixing digit `d` to a fraction `x`
      whose scaled value is `y` gives `d * q + y` at the next scale. */
  lemma ShiftDigit(v: real, x: real, d: nat, q: nat, y: nat, n: nat)
    requires v == (d as real + x) / 10.0
    requires Scaled(x, q) == y as real
    requires n == 10 * q
    ensures Scaled(v, n) == (d * q + y) as real
  {
    calc {
      Scaled(v, n);
      (d as real + x) / 10.0 * (10.0 * q as real);
      d as real * q as real + x * q as real;
      { ProductAsReal(d, q); }
      (d * q) as real + y as real;
    }
  }

  lemma ProductAsReal(a: nat, b: nat)
    ensures (a * b) as real == a as real * b as real
  {
  }
}

=== FILE: wrappers.dfy ===
/** The optional value used wherever the daemon may have nothing to report. */
module Wrappers {

  datatype Option<+T> = None | Some(value: T)
}
